=== FILE: README.md ===
# Token: HOTP/TOTP authenticator tokens

A model in Dafny of the `Token` class of the 2FA Authenticator Android app
(`app/src/main/java/com/vs/authenticator/Token.java`).

A token is built from an `otpauth://hotp/...` or `otpauth://totp/...` URI.
The URI's path gives the issuer and label, as `ISSUER:LABEL` or just `LABEL`.
Its query gives `secret`, `issuer`, `algorithm`, `digits`, `period` and `counter`.
Building the token validates the scheme, the authority and the path. It reads each parameter with its default and checks it. Any failure throws the single `TokenUriInvalidException`.

A built token can do the following:
- give its identity (`getID`);
- give and override its display issuer and label (`getIssuer`/`setIssuer`, `getLabel`/`setLabel`);
- compute one-time codes (`getHOTP`), following RFC 4226:
  - the counter goes in as an 8-byte big-endian block;
  - the digest is reduced by dynamic truncation;
  - the result is written as zero-padded decimal digits, or in the 26-symbol Steam alphabet when the issuer is `Steam`;
- generate the codes to show (`generateCodes`):
  - HOTP codes the stored counter and advances it;
  - TOTP codes the current time window of `period` seconds, plus the window after it;
- export itself back to a URI (`toUri`).

Layout:

- `JavaLang.dfy`: module `Options`, plus module `JavaLang`. The latter holds the Java semantics the class relies on:
  - `int`/`long` wrap-around;
  - truncating division;
  - `Integer.toString`/`parseInt` and `Long.parseLong`;
  - `toUpperCase` on ASCII;
  - `indexOf` and `replaceFirst` of one character.
- `Collaborators.dfy`: the code Token calls but does not define, as plain values:
  - the keyed-hash engine (`Mac`) and the base-32 codec (`Base32Codec`), as records of functions passed in as parameters;
  - the URI, already taken apart into scheme, authority, path and query pairs;
  - `getQueryParameter` and `Uri.Builder.build`.
- `Hotp.dfy`: the counter block, dynamic truncation, and the two code formats.
- `TokenSpec.dfy`: the token's fields as a value (`TokenState`), and every operation as a function of it. This is the specification the class is proved against.
- `TokenProperties.dfy`: what construction, identity and code generation promise, proved about those functions.
- `TokenExport.dfy`: export and re-import. It covers the round trip, where the round trip fails as the code is written, and a corrected export.
- `Token.dfy`: module `Tokens`, the `Token` class, with its fields updated in place. Its contents:
  - The constructor, `validateTokenURI`, `setIssuer`/`setLabel`, `getHOTP` and `generateCodes` are methods.
  - `getHOTP`'s three loops (the divisor, the Steam symbols and the zero padding) are methods of their own.
  - Each method is proved against a function:
    - the constructor against the `TokenState` of its arguments;
    - `FromUri`, `ValidateUri` and `ReadParameters` against `ParseUri`, `UriKind` and `ParseParameters`;
    - `SetIssuer`/`SetLabel` against `NormalizedAlias`;
    - `HotpCode` and `GenerateCodes` against `Otp` and `Generate`;
    - `SteamSymbols` and `PadWithZeros` against `Hotp.SteamCode` and `Hotp.ZeroPad`;
    - `Divisor` against `Pow10`, for up to nine digits.

## Model

| member | source | states |
|---|---|---|
| JavaLang.Long | app/src/main/java/com/vs/authenticator/Token.java:226 | The `long` that holds an exact result: in the 64-bit range, congruent to the exact result modulo 2^64, and equal to it when it fits (the increment of `counter++` and of `counter + 1`) |
| JavaLang.Int | app/src/main/java/com/vs/authenticator/Token.java:143-145 | The `int` that holds an exact result: in the 32-bit range, congruent to the exact result modulo 2^32, and equal to it when it fits (`div *= 10`) |
| JavaLang.JavaDiv | app/src/main/java/com/vs/authenticator/Token.java:229 | Java's `/` by a positive divisor truncates toward zero: the quotient times the divisor is within one divisor of the dividend, on the dividend's side of zero |
| JavaLang.JavaDivTowardZero | app/src/main/java/com/vs/authenticator/Token.java:229 | The truncated quotient lies between zero and the dividend |
| JavaLang.NatToString | app/src/main/java/com/vs/authenticator/Token.java:173 | `Integer.toString` of a non-negative number: non-empty decimal digits denoting that number, with no leading zero |
| JavaLang.IntToString | app/src/main/java/com/vs/authenticator/Token.java:248-254 | `Integer.toString`/`Long.toString`: an integer literal (optional sign, one or more digits) whose signed value is the number, in its shortest form: plain digits without a leading zero for a non-negative number, and '-' followed by a non-zero digit for a negative one |
| JavaLang.ParseInteger | app/src/main/java/com/vs/authenticator/Token.java:64 | `parseInt`/`parseLong` succeed if and only if the text is an optional '+' or '-' followed by one or more decimal digits whose signed value lies in the type's range, and then return that value |
| JavaLang.ParseIntegerOfToString | app/src/main/java/com/vs/authenticator/Token.java:248-249 | What `toString` writes, `parseInt`/`parseLong` read back as the same number |
| JavaLang.FindFirst | app/src/main/java/com/vs/authenticator/Token.java:45 | `indexOf(':')`: the first position holding the character, or the length when there is none (no earlier occurrence) |
| JavaLang.RemoveFirst | app/src/main/java/com/vs/authenticator/Token.java:40 | `replaceFirst("/", "")`: unchanged without a '/'; otherwise the string with the first '/' (where `indexOf` finds it) cut out, wherever it is; so the rest of the string when it starts with '/' |
| JavaLang.AsciiUpper | app/src/main/java/com/vs/authenticator/Token.java:53 | `toUpperCase(Locale.US)`: same length; each lower-case letter becomes the character 32 code points below it (its capital); every other character kept; no lower-case letter left |
| JavaLang.AsciiUpperIdempotent | app/src/main/java/com/vs/authenticator/Token.java:53 | Upper-casing the stored algorithm name again changes nothing |
| Collaborators.QueryParameter | app/src/main/java/com/vs/authenticator/Token.java:47 | `getQueryParameter`: null exactly when no pair has the key, otherwise the value of the first pair with the key |
| Collaborators.Build | app/src/main/java/com/vs/authenticator/Token.java:244-261 | The built URI has the given scheme, authority and query. Its path is the given path when that is empty or already starts with '/', and "/" + the path otherwise |
| Hotp.EncodeCounter | app/src/main/java/com/vs/authenticator/Token.java:139-140 | `putLong` writes exactly 8 bytes |
| Hotp.FromBigEndianOfBigEndian | app/src/main/java/com/vs/authenticator/Token.java:140 | n big-endian bytes of x read back as x modulo 256^n |
| Hotp.EncodeCounterValue | app/src/main/java/com/vs/authenticator/Token.java:139-140 | The 8-byte block denotes the counter modulo 2^64 (two's complement) |
| Hotp.EncodeCounterInjective | app/src/main/java/com/vs/authenticator/Token.java:139-140 | Two longs give the same block if and only if they are equal |
| Hotp.Offset | app/src/main/java/com/vs/authenticator/Token.java:157 | The offset from the last digest byte leaves four bytes to read |
| Hotp.Truncate | app/src/main/java/com/vs/authenticator/Token.java:156-161 | The truncated value is below 2^31 |
| Hotp.TruncateIsMaskedWord | app/src/main/java/com/vs/authenticator/Token.java:156-161 | Truncation is the big-endian 32-bit word at the offset, with the top bit cleared (modulo 2^31) |
| Hotp.SteamCode | app/src/main/java/com/vs/authenticator/Token.java:164-168 | A Steam code has one symbol per digit |
| Hotp.SteamCodeAt | app/src/main/java/com/vs/authenticator/Token.java:165-168 | Symbol i of a Steam code is the alphabet entry for base-26 digit i of the truncated value, least significant first |
| Hotp.ZeroPad | app/src/main/java/com/vs/authenticator/Token.java:174-175 | Padding gives exactly n characters: the string at the end, '0' everywhere before it |
| Hotp.DecimalCode | app/src/main/java/com/vs/authenticator/Token.java:169-176 | The decimal code has exactly `digits` decimal digits, whose value is the truncated value modulo 10^digits |
| Hotp.FormatCode | app/src/main/java/com/vs/authenticator/Token.java:163-176 | A code has max(digits, 0) symbols for Steam, and `digits` characters otherwise |
| Hotp.FormatCodeShape | app/src/main/java/com/vs/authenticator/Token.java:163-176 | The shape of a formatted code. Steam: max(digits, 0) symbols of the Steam alphabet, symbol i being base-26 digit i. Otherwise: `digits` decimal digits worth the value modulo 10^digits |
| Hotp.Rfc4226Example | app/src/main/java/com/vs/authenticator/Token.java:155-175 | The worked example of section 5.4 of RFC 4226: offset 10, truncated value 0x50ef7f19, six-digit code "872921" |
| Hotp.EncodeSmallCounter | app/src/main/java/com/vs/authenticator/Token.java:139-140 | A counter below 256 is written as seven zero bytes followed by the counter, the block RFC 4226 Appendix D hashes |
| Hotp.SixDigitCode | app/src/main/java/com/vs/authenticator/Token.java:169-175 | A non-Steam six-digit code is the truncated value modulo 10^6 written as its six decimal digits |
| Hotp.Rfc4226Count0 | app/src/main/java/com/vs/authenticator/Token.java:155-175 | Appendix D of RFC 4226, count 0: from the published digest, truncated value 1284755224 and six-digit code "755224" |
| Hotp.Rfc4226Count1 | app/src/main/java/com/vs/authenticator/Token.java:155-175 | Appendix D of RFC 4226, count 1: from the published digest, truncated value 1094287082 and six-digit code "287082" |
| Hotp.Rfc4226Count2 | app/src/main/java/com/vs/authenticator/Token.java:155-175 | Appendix D of RFC 4226, count 2: from the published digest, truncated value 137359152 and six-digit code "359152" |
| Hotp.Rfc4226Count3 | app/src/main/java/com/vs/authenticator/Token.java:155-175 | Appendix D of RFC 4226, count 3: from the published digest, truncated value 1726969429 and six-digit code "969429" |
| Hotp.Rfc4226Count4 | app/src/main/java/com/vs/authenticator/Token.java:155-175 | Appendix D of RFC 4226, count 4: from the published digest, truncated value 1640338314 and six-digit code "338314" |
| Hotp.Rfc4226Count5 | app/src/main/java/com/vs/authenticator/Token.java:155-175 | Appendix D of RFC 4226, count 5: from the published digest, truncated value 868254676 and six-digit code "254676" |
| Hotp.Rfc4226Count6 | app/src/main/java/com/vs/authenticator/Token.java:155-175 | Appendix D of RFC 4226, count 6: from the published digest, truncated value 1918287922 and six-digit code "287922" |
| Hotp.Rfc4226Count7 | app/src/main/java/com/vs/authenticator/Token.java:155-175 | Appendix D of RFC 4226, count 7: from the published digest, truncated value 82162583 and six-digit code "162583" |
| Hotp.Rfc4226Count8 | app/src/main/java/com/vs/authenticator/Token.java:155-175 | Appendix D of RFC 4226, count 8: from the published digest, truncated value 673399871 and six-digit code "399871" |
| Hotp.Rfc4226Count9 | app/src/main/java/com/vs/authenticator/Token.java:155-175 | Appendix D of RFC 4226, count 9: from the published digest, truncated value 645520489 and six-digit code "520489" |
| TokenSpec.Effective | app/src/main/java/com/vs/authenticator/Token.java:198-213 | The displayed value is the base value or the alias; when the alias is never the base value, it is the base value exactly when there is no alias |
| TokenSpec.NormalizedAlias | app/src/main/java/com/vs/authenticator/Token.java:205-207 | The alias `setIssuer`/`setLabel` store: never equal to the base value; the displayed value becomes the request, or the base value for null; a stored alias is the request |
| TokenSpec.NormalizedAliasStable | app/src/main/java/com/vs/authenticator/Token.java:198-218 | Setting the alias to the value on display changes nothing, and setting it twice is setting it once |
| TokenSpec.SplitAtColon | app/src/main/java/com/vs/authenticator/Token.java:45-48 | The path split at its first ':': an issuer without ':', then ':', then the label; all label and no issuer when there is no ':' |
| TokenSpec.UriKind | app/src/main/java/com/vs/authenticator/Token.java:117-135 | `validateTokenURI` passes if and only if the scheme is otpauth, the authority totp or hotp, and a path is present; the type is TOTP exactly for totp |
| TokenSpec.ParseUri | app/src/main/java/com/vs/authenticator/Token.java:35-103 | A built token is well-formed. It has the type the authority names, and the issuer and label the stripped non-empty path splits into. Its internal issuer is the `issuer` parameter. Its algorithm is supported and its secret is the decoded `secret` parameter. Without `internal` it has no aliases |
| TokenSpec.ParseParameters | app/src/main/java/com/vs/authenticator/Token.java:47-97 | The parameter checks yield a well-formed token with the given type, issuer and label, the `issuer` parameter, a supported algorithm, the decoded secret and no aliases |
| TokenSpec.WithAliases | app/src/main/java/com/vs/authenticator/Token.java:99-102 | The internal constructor changes only the aliases, keeps the token well-formed, and displays the `issueralt`/`labelalt` parameters when present and the base values otherwise |
| TokenSpec.Id | app/src/main/java/com/vs/authenticator/Token.java:186-196 | The identity always ends with the label |
| TokenSpec.Otp | app/src/main/java/com/vs/authenticator/Token.java:137-184 | `getHOTP` returns "" when the keyed hash fails; otherwise a code of max(digits, 0) symbols for Steam and `digits` characters for any other issuer |
| TokenSpec.TimeStep | app/src/main/java/com/vs/authenticator/Token.java:229 | The step `cur / 1000 / period` lies between 0 and the time, on the time's side of zero |
| TokenSpec.Generate | app/src/main/java/com/vs/authenticator/Token.java:221-239 | Code generation keeps the token well-formed and changes nothing but the counter |
| TokenSpec.ExportedIssuer | app/src/main/java/com/vs/authenticator/Token.java:246 | Unless the internal issuer is the empty string, the exported issuer is the issuer part of `getID`: the identity is issuer:label when it is non-empty and the label alone when it is empty |
| TokenSpec.ExportQuery | app/src/main/java/com/vs/authenticator/Token.java:244-255 | `toUri`'s query: the five shared parameters in the builder's order, then, for HOTP only, `counter` as `Long.toString(counter + 1)` (with `long` wrap-around); what each key reads back as is `TokenExport.ExportQueryReads` |
| TokenSpec.CommonQuery | app/src/main/java/com/vs/authenticator/Token.java:244-249 | The parameters both token types carry, in the order `toUri` appends them: secret, issuer, algorithm, digits, period |
| TokenSpec.ExportPath | app/src/main/java/com/vs/authenticator/Token.java:242 | With an issuer, the exported path splits back into exactly that issuer and the label; with an empty issuer it is the label alone, so a ':' in the label is not protected |
| TokenSpec.ToUri | app/src/main/java/com/vs/authenticator/Token.java:241-262 | The export has scheme otpauth, authority hotp or totp by type, and the export query. An empty path stays empty. Any other path reads back, after the constructor's `replaceFirst`, as the path given to the builder less a leading '/' |
| TokenProperties.ParseRejects | app/src/main/java/com/vs/authenticator/Token.java:35-135 | Each check on its own refuses the URI: scheme, authority, missing or empty path, unsupported algorithm, unparsable digits, a non-Steam digits value other than 6 and 8, unparsable period, unparsable HOTP counter, missing or undecodable secret |
| TokenProperties.SplitsPathUnique | app/src/main/java/com/vs/authenticator/Token.java:45-48 | A path has only one issuer/label split |
| TokenProperties.ParseDefaults | app/src/main/java/com/vs/authenticator/Token.java:50-102 | The defaults apply: SHA1, 6 digits, period 30, HOTP counter 0. A period of zero or less becomes 30. TOTP keeps counter 0. The internal constructor stores the normalized `issueralt`/`labelalt` aliases |
| TokenProperties.ParseUriAcceptsExactly | app/src/main/java/com/vs/authenticator/Token.java:35-103 | An external URI yields a token if and only if every check passes and each field is the value read, its default or its coercion (both directions) |
| TokenProperties.ParametersAcceptExactly | app/src/main/java/com/vs/authenticator/Token.java:47-97 | Once the path is split, the parameters yield exactly the tokens whose fields they read as (both directions) |
| TokenProperties.IdOfParsedUri | app/src/main/java/com/vs/authenticator/Token.java:186-196 | Without an `issuer` parameter (or with an empty one), the identity of a parsed token is its stripped path, less a leading ':' |
| TokenProperties.IdOfSplitPath | app/src/main/java/com/vs/authenticator/Token.java:186-196 | With no internal issuer, the identity of a token whose issuer and label split a path is that path, less a leading ':' |
| TokenProperties.GeneratedCodeAlphabet | app/src/main/java/com/vs/authenticator/Token.java:163-183 | Every generated code is either empty (the hash failed, or a Steam token has `digits` <= 0) or `digits` long. It is decimal digits for a non-Steam issuer, and symbols of the Steam alphabet for Steam |
| TokenProperties.HotpSuccessiveCodes | app/src/main/java/com/vs/authenticator/Token.java:224-226 | Two HOTP generations code the stored counter and then the next value, hash distinct blocks, leave the counter two ahead, and show each code for one period from the moment asked |
| TokenProperties.TimeStepBounds | app/src/main/java/com/vs/authenticator/Token.java:229 | The TOTP step is the number of whole windows of period * 1000 ms before the current time |
| TokenProperties.TimeStepNearEpoch | app/src/main/java/com/vs/authenticator/Token.java:229 | Because Java's division truncates toward zero, the step is 0 throughout the period before the epoch as well as the one after it |
| TokenProperties.TimeStepOfWindow | app/src/main/java/com/vs/authenticator/Token.java:229 | Any time inside window k has step k |
| TokenProperties.TotpWindow | app/src/main/java/com/vs/authenticator/Token.java:228-235 | TOTP leaves the token unchanged. The code is for the aligned window that contains the current time, and that window is one period long. The next code is for the adjacent window |
| TokenProperties.TotpSameWindowSameCodes | app/src/main/java/com/vs/authenticator/Token.java:228-235 | Every time inside a TOTP code's window produces the same codes |
| TokenProperties.TotpDependsOnStepOnly | app/src/main/java/com/vs/authenticator/Token.java:229-235 | TOTP generation depends on the time only through the step |
| TokenProperties.TotpNextIsLater | app/src/main/java/com/vs/authenticator/Token.java:229-235 | The look-ahead code and its window are what a generation one period later returns |
| TokenExport.ExportQueryReads | app/src/main/java/com/vs/authenticator/Token.java:244-254 | Each exported parameter reads back as written: the secret, the issuer (internal, else external), the algorithm, digits and period. `counter` is present exactly for HOTP, as the counter plus one. `issueralt` and `labelalt` are never present |
| TokenExport.ExportParametersParse | app/src/main/java/com/vs/authenticator/Token.java:244-254 | The exported parameters parse back to the token's algorithm, digits and period, and for HOTP to the counter plus one |
| TokenExport.ExportAccepted | app/src/main/java/com/vs/authenticator/Token.java:241-262 | A URI carrying the exported query passes every check of construction. It holds every field of the exported token except the path's issuer and label |
| TokenExport.ReimportExportQuery | app/src/main/java/com/vs/authenticator/Token.java:241-262 | Re-importing a URI with the exported query gives every base field back. Aliases are dropped and the HOTP counter is one ahead. Issuer and label are whatever the path reads as |
| TokenExport.RoundTrip | app/src/main/java/com/vs/authenticator/Token.java:241-262 | For every path the export keeps, export then import gives back every base field. Aliases are dropped and the HOTP counter is one ahead |
| TokenExport.RoundTripOnlyIfSurvives | app/src/main/java/com/vs/authenticator/Token.java:241-262 | The converse of `RoundTrip`: for a well-formed token whose path the export does not keep (empty, starting with '/', or an empty issuer with a ':' in the label), export then import does not give the token back |
| TokenExport.ExportSplitsColonLabel | app/src/main/java/com/vs/authenticator/Token.java:242 | As written: the path "/:a:b" gives label "a:b". It is exported as "a:b" and comes back as issuer "a" with label "b" |
| TokenExport.ExportOfEmptyLabelRefused | app/src/main/java/com/vs/authenticator/Token.java:242 | As written: the path "/:" gives an empty issuer and label. It is exported with an empty path, which construction refuses |
| TokenExport.ExportDropsLeadingSlash | app/src/main/java/com/vs/authenticator/Token.java:242 | As written: the path "//x" gives label "/x". The builder keeps "/x" as it is, so the label comes back as "x" |
| TokenExport.ExportPathCorrected | app/src/main/java/com/vs/authenticator/Token.java:242 | The corrected export path is never empty and splits back into exactly the token's issuer and label |
| TokenExport.ToUriCorrected | app/src/main/java/com/vs/authenticator/Token.java:241-262 | The corrected export has the scheme, authority and query of `toUri`, and its path reads back, after the constructor's `replaceFirst`, as exactly the corrected path |
| TokenExport.RoundTripCorrected | app/src/main/java/com/vs/authenticator/Token.java:241-262 | With the corrected path, export then import gives back every base field of every well-formed token |
| Tokens.Token.constructor | app/src/main/java/com/vs/authenticator/Token.java:35-103 | The field assignments of the constructor, with no aliases; given well-formed field values, the new token is valid |
| Tokens.Token.FromUri | app/src/main/java/com/vs/authenticator/Token.java:35-103 | The constructor throws exactly when ParseUri refuses the URI. Otherwise it yields a fresh, valid token whose fields are those ParseUri describes |
| Tokens.Token.ValidateUri | app/src/main/java/com/vs/authenticator/Token.java:117-135 | `validateTokenURI`'s early exits compute UriKind |
| Tokens.Token.ReadParameters | app/src/main/java/com/vs/authenticator/Token.java:47-97 | The parameter checks, in the constructor's order, throw exactly when ParseParameters refuses. Otherwise they yield a fresh, valid token with its fields |
| Tokens.Token.Issuer | app/src/main/java/com/vs/authenticator/Token.java:198-202 | `getIssuer` returns the alias when one is set; on a valid token it returns the path's issuer exactly when no alias is set |
| Tokens.Token.Label | app/src/main/java/com/vs/authenticator/Token.java:209-213 | `getLabel` returns the alias when one is set; on a valid token it returns the path's label exactly when no alias is set |
| Tokens.Token.SetIssuer | app/src/main/java/com/vs/authenticator/Token.java:198-207 | `setIssuer` changes only the issuer alias, to the normalized request, and keeps the token valid. `getIssuer` then returns the request, or the path's issuer for null |
| Tokens.Token.SetLabel | app/src/main/java/com/vs/authenticator/Token.java:209-218 | `setLabel` changes only the label alias, to the normalized request, and keeps the token valid. `getLabel` then returns the request, or the path's label for null |
| Tokens.Token.HotpCode | app/src/main/java/com/vs/authenticator/Token.java:137-184 | `getHOTP` returns exactly Otp: the formatted truncation of the keyed hash of the counter block, or "" when the hash fails |
| Tokens.Token.GenerateCodes | app/src/main/java/com/vs/authenticator/Token.java:221-239 | `generateCodes` returns the codes Generate describes and leaves the token in Generate's new state, still valid |
| Tokens.Divisor | app/src/main/java/com/vs/authenticator/Token.java:143-145 | The divisor loop stays within a Java int and yields 10^digits for up to nine digits |
| Tokens.SteamSymbols | app/src/main/java/com/vs/authenticator/Token.java:165-168 | The Steam loop builds exactly SteamCode of the truncated value, with one symbol per digit |
| Tokens.PadWithZeros | app/src/main/java/com/vs/authenticator/Token.java:174-175 | The padding loop builds exactly the zero-padded string of `digits` characters |

## Left out

- `validateTokenURI` throws for a null `uri` (line 118). A `Uri` value in the model is never null, so that case does not arise.
- `Uri.parse` and the `Token(String)`, `Token(String, boolean)` and `Token(Uri)` overloads (lines 105-115) are not modelled. URI text parsing and percent-decoding belong to android.net.Uri. The model starts from a URI already split into scheme, authority, path and decoded query pairs.
- `toString` (lines 264-268) renders `toUri()` as text through android.net.Uri. It is not modelled; `toUri` is.
- Only the part of `Uri.Builder` that Token relies on is modelled (`Collaborators.Build`): a non-empty relative path gets a leading '/'. Encoding is not.
- HMAC and SHA are not modelled. `Mac` is a parameter; its `hmac` returns a digest of at least 20 bytes, or None when the engine throws. The RFC 4226 vectors are therefore checked from their published digests: the worked example of section 5.4 (`Hotp.Rfc4226Example`) and the ten HOTP values of Appendix D (`Hotp.Rfc4226Count0` to `Hotp.Rfc4226Count9`). The test vectors of RFC 6238 (Appendix B) publish only the TOTP values, not the digests, so checking them needs the hash and is not done here.
- Base-32 encoding and decoding are not modelled. `Base32Codec` is a parameter, and the round-trip lemmas assume that decoding undoes encoding for the token's secret.
- `System.currentTimeMillis()` is the parameter `cur`.
- `e.printStackTrace()` (line 180) is not modelled; the failure path returns "".
- `JavaLang.ParseInteger` accepts ASCII digits only; Java's `Integer.parseInt`/`Long.parseLong` also accept other Unicode decimal digits.
- `toUpperCase(Locale.US)` is modelled on ASCII letters only.
- Tokens.Token.HotpCode: does not model the exceptions `getHOTP` lets escape. An empty secret (the constructor accepts whatever the decoder returns, lines 92-97) makes `new SecretKeySpec` (line 150) throw IllegalArgumentException, which the catch at line 179 does not catch. A 16-byte digest (HmacMD5 passes `Mac.getInstance` at line 55) makes lines 158-161 read past the end of the digest when the offset is 13 or more, an ArrayIndexOutOfBoundsException. The model returns a code in both cases: the `Digest` type of `Collaborators` has at least 20 bytes, and the model's `hmac` treats an empty key like any other.
- Tokens.Token.GenerateCodes: does not model the same two exceptions. For HOTP they escape after `counter++` (line 226) has already advanced the counter, so the token is left one ahead with no code returned; the model returns a code in that case.
- Tokens.Token.GenerateCodes: the window times `step * period * 1000` and `cur + period * 1000` are exact integers. Java `long` overflow there, far outside any real clock value, is not modelled.
- TokenProperties.HotpSuccessiveCodes: requires the counter to stay below the `long` maximum, so that two increments do not wrap. The wrap itself is modelled in `Generate` via `JavaLang.Long`.
- Tokens.Divisor: states 10^digits only for up to nine digits. For larger Steam digit counts the divisor wraps like a Java int. The Steam path never uses it.
- Concurrency: `generateCodes` changes the HOTP counter, and nothing serialises calls on one token. The model is sequential.
- `type`, `algo` and `period` are assigned only during construction, so the class declares them `const` along with the final fields.

Behaviour of the code that the model follows as written:
- `getHOTP` catches InvalidKeyException and NoSuchAlgorithmException, prints the stack trace and returns "" (lines 179-183). `Mac.hmac` returning None stands for those two exceptions.
- The constructor does not check that the decoded secret is non-empty (lines 92-97); an empty secret is stored.
- The comment at line 39 says the path loses its leading '/'. `replaceFirst("/", "")` at line 40 removes the first '/' wherever it is, which `JavaLang.RemoveFirst` models.
- The export round trip does not hold for every token; see Findings.

## Findings

| source | as written | input that shows it | evidently intended | confidence | as-written member | corrected member |
|---|---|---|---|---|---|---|
| app/src/main/java/com/vs/authenticator/Token.java:242 | With an empty issuer, `toUri` writes the label alone, so a ':' inside the label becomes a separator on re-import | a token read from path "/:a:b" (issuer "", label "a:b") re-imports as issuer "a", label "b" | export then import keeps issuer and label | not executed | TokenExport.ExportSplitsColonLabel | TokenExport.RoundTripCorrected |
| app/src/main/java/com/vs/authenticator/Token.java:242 | With an empty issuer and an empty label the exported path is empty, and construction refuses it | a token read from path "/:" exports a URI that `Token(Uri)` rejects | the exported URI of a valid token is accepted | not executed | TokenExport.ExportOfEmptyLabelRefused | TokenExport.RoundTripCorrected |
| app/src/main/java/com/vs/authenticator/Token.java:242-244 | A label that starts with '/' is handed to the builder as an absolute path, and the re-import strips that '/' | a token read from path "//x" (label "/x") re-imports with label "x" | export then import keeps the label | not executed | TokenExport.ExportDropsLeadingSlash | TokenExport.RoundTripCorrected |

The corrected export (`TokenExport.ExportPathCorrected`, `TokenExport.ToUriCorrected`) works as follows:
- It keeps the ':' whenever dropping it would change how the path splits.
- It hands the builder a path that is already absolute.

`TokenExport.RoundTripCorrected` proves that every well-formed token then survives export and import. `TokenExport.RoundTrip` proves the round trip of `toUri` as written, for the paths it keeps (`TokenExport.PathSurvivesExport`), and `TokenExport.RoundTripOnlyIfSurvives` that no other path comes back.

=== FILE: Collaborators.dfy ===
/**
 * What Token uses but does not define, reduced to what Token relies on:
 * the keyed-hash engine (javax.crypto.Mac), the base-32 codec
 * (Base32String) and android.net.Uri, already taken apart into the pieces
 * Token reads.
 */
module Collaborators {
  import opened Options

  /** An octet as an unsigned value; Java's signed `byte` read through `& 0xff`. */
  type byte = x: int | 0 <= x < 256

  /** A keyed-hash result. HMAC-SHA1 yields 20 bytes, HMAC-SHA256 32, HMAC-SHA512 64. */
  type Digest = d: seq<byte> | |d| >= 20 witness seq(20, _ => 0)

  /**
   * The keyed-hash engine. `supported(name)` is whether `Mac.getInstance(name)`
   * succeeds; `hmac(name, key, message)` is the digest of `message` under `key`,
   * or None when the engine throws (unknown algorithm, key it rejects).
   */
  datatype Mac = Mac(supported: string -> bool, hmac: (string, seq<byte>, seq<byte>) -> Option<Digest>)

  /** Base32String: `decode` is None where it throws DecodingException. */
  datatype Base32Codec = Base32Codec(decode: string -> Option<seq<byte>>, encode: seq<byte> -> string)

  /**
   * A URI as Token sees it: `getScheme()`, `getAuthority()` and `getPath()`
   * (None where they return null) and the query as its decoded (key, value)
   * pairs in order.
   */
  datatype Uri = Uri(scheme: Option<string>, authority: Option<string>, path: Option<string>,
                     query: seq<(string, string)>)

  /** `getQueryParameter(key)`: the value of the first pair with that key, None (null) if there is none. */
  function QueryParameter(query: seq<(string, string)>, key: string): (r: Option<string>)
    ensures r.None? <==> forall i :: 0 <= i < |query| ==> query[i].0 != key
    ensures r.Some? ==> exists i :: 0 <= i < |query| && query[i] == (key, r.value) &&
                                    forall j :: 0 <= j < i ==> query[j].0 != key
  {
    if query == [] then None
    else if query[0].0 == key then Some(query[0].1)
    else
      var r := QueryParameter(query[1..], key);
      assert forall i :: 1 <= i < |query| ==> query[i] == query[1..][i - 1];
      r
  }

  /**
   * `Uri.Builder.build()` on a builder given a scheme, an authority, a path
   * and query pairs: with a scheme present, a non-empty path that does not
   * start with '/' is made absolute by prefixing '/'.
   */
  function Build(scheme: string, authority: string, path: string, query: seq<(string, string)>): (u: Uri)
    ensures u.scheme == Some(scheme) && u.authority == Some(authority) && u.query == query
    ensures u.path.Some? && (path == "" <==> u.path.value == "")
    ensures path != "" ==> u.path.value[0] == '/'
    ensures path == "" || path[0] == '/' ==> u.path.value == path
    ensures path != "" && path[0] != '/' ==> u.path.value == "/" + path
  {
    var absolute := if path == "" || path[0] == '/' then path else "/" + path;
    Uri(Some(scheme), Some(authority), Some(absolute), query)
  }
}

=== FILE: Hotp.dfy ===
/**
 * The HOTP computation of RFC 4226 as Token.getHOTP performs it, minus the
 * keyed hash itself: the counter as an 8-byte big-endian block (section 5.1),
 * dynamic truncation of the digest (section 5.3), and the two ways the
 * 31-bit result is written out, decimal digits or the Steam alphabet.
 */
module Hotp {
  import opened JavaLang
  import opened Collaborators

  /** Token.STEAM_CHARS: the 26 symbols of a Steam Guard code. */
  const SteamChars: string := "23456789BCDFGHJKMNPQRTVWXY"

  const TwoTo31: int := 0x8000_0000

  // ---------------------------------------------------------------------
  // Counter encoding: ByteBuffer.putLong, network byte order

  /** The low n bytes of x, most significant first. */
  function BigEndian(x: nat, n: nat): (bs: seq<byte>)
    ensures |bs| == n
  {
    if n == 0 then [] else BigEndian(x / 256, n - 1) + [x % 256]
  }

  /** The number a big-endian byte string denotes. */
  function FromBigEndian(bs: seq<byte>): nat
  {
    if bs == [] then 0 else FromBigEndian(bs[..|bs| - 1]) * 256 + bs[|bs| - 1]
  }

  /** Reading the n bytes back gives x modulo 256^n. */
  lemma {:induction false} FromBigEndianOfBigEndian(x: nat, n: nat)
    ensures FromBigEndian(BigEndian(x, n)) == x % Pow(256, n)
  {
    if n > 0 {
      var bs := BigEndian(x, n);
      assert bs[..|bs| - 1] == BigEndian(x / 256, n - 1);
      FromBigEndianOfBigEndian(x / 256, n - 1);
      DivDiv(x, 256, Pow(256, n - 1));
    }
  }

  /** The 8-byte block `bb.putLong(counter)` produces: the two's-complement bytes of a long. */
  function EncodeCounter(counter: int): (bs: seq<byte>)
    ensures |bs| == 8
  {
    BigEndian(counter % TwoTo64, 8)
  }

  lemma Pow256To8()
    ensures Pow(256, 8) == TwoTo64
  {
  }

  /** The block denotes the counter modulo 2^64. */
  lemma EncodeCounterValue(counter: int)
    ensures FromBigEndian(EncodeCounter(counter)) == counter % TwoTo64
  {
    var x: nat := counter % TwoTo64;
    FromBigEndianOfBigEndian(x, 8);
    Pow256To8();
    DivModUnique(x, TwoTo64, 0, x);
  }

  /** Distinct longs give distinct blocks, so each counter value is hashed as a message of its own. */
  lemma EncodeCounterInjective(a: int, b: int)
    requires LongMin <= a <= LongMax && LongMin <= b <= LongMax
    ensures EncodeCounter(a) == EncodeCounter(b) <==> a == b
  {
    if EncodeCounter(a) == EncodeCounter(b) {
      EncodeCounterValue(a);
      EncodeCounterValue(b);
      var m := TwoTo64;
      var qa, qb := a / m, b / m;
      assert a == qa * m + a % m;
      assert b == qb * m + b % m;
      assert (qa - qb) * m == a - b;
      MulAtLeast(qa - qb, m);
    }
  }

  // ---------------------------------------------------------------------
  // Dynamic truncation

  /** The offset the last digest byte selects (its low four bits). */
  function Offset(d: Digest): (off: nat)
    ensures off + 4 <= |d|
  {
    d[|d| - 1] % 16
  }

  /**
   * Dynamic truncation: four bytes from the selected offset, big-endian, the
   * top bit of the first masked off.
   */
  function Truncate(d: Digest): (binary: nat)
    ensures binary < TwoTo31
  {
    var off := Offset(d);
    var b0, b1, b2, b3: int := d[off], d[off + 1], d[off + 2], d[off + 3];
    (b0 % 128) * 0x100_0000 + b1 * 0x1_0000 + b2 * 0x100 + b3
  }

  /** Truncation is the 32-bit big-endian word at the offset, reduced to 31 bits. */
  lemma TruncateIsMaskedWord(d: Digest)
    ensures Truncate(d) == FromBigEndian(d[Offset(d)..Offset(d) + 4]) % TwoTo31
  {
    var off := Offset(d);
    var b0, b1, b2, b3: int := d[off], d[off + 1], d[off + 2], d[off + 3];
    var w := d[off..off + 4];
    assert w == [b0, b1, b2, b3];
    assert [b0, b1, b2, b3][..3] == [b0, b1, b2];
    assert [b0, b1, b2][..2] == [b0, b1];
    assert [b0, b1][..1] == [b0];
    assert [b0][..0] == [];
    assert FromBigEndian([b0]) == b0;
    assert FromBigEndian([b0, b1]) == b0 * 256 + b1;
    assert FromBigEndian([b0, b1, b2]) == (b0 * 256 + b1) * 256 + b2;
    assert FromBigEndian(w) == b0 * 0x100_0000 + b1 * 0x1_0000 + b2 * 0x100 + b3;
    var low := b1 * 0x1_0000 + b2 * 0x100 + b3;
    assert b0 * 0x100_0000 == (b0 / 128) * TwoTo31 + (b0 % 128) * 0x100_0000;
    DivModUnique(FromBigEndian(w), TwoTo31, b0 / 128, (b0 % 128) * 0x100_0000 + low);
  }

  // ---------------------------------------------------------------------
  // Writing the code out

  /** The Steam code: n symbols, the least significant base-26 digit first. */
  function SteamCode(binary: nat, n: nat): (s: string)
    ensures |s| == n
  {
    if n == 0 then [] else [SteamChars[binary % 26]] + SteamCode(binary / 26, n - 1)
  }

  /** Symbol i of a Steam code is base-26 digit i of the truncated value. */
  lemma {:induction false} SteamCodeAt(binary: nat, n: nat, i: nat)
    requires i < n
    ensures SteamCode(binary, n)[i] == SteamChars[(binary / Pow(26, i)) % 26]
  {
    var rest := SteamCode(binary / 26, n - 1);
    assert SteamCode(binary, n) == [SteamChars[binary % 26]] + rest;
    if i == 0 {
      assert Pow(26, 0) == 1;
      assert binary / Pow(26, 0) == binary;
    } else {
      assert SteamCode(binary, n)[i] == rest[i - 1];
      SteamCodeAt(binary / 26, n - 1, i - 1);
      assert rest[i - 1] == SteamChars[(binary / 26 / Pow(26, i - 1)) % 26];
      SteamDigitShift(binary, i);
    }
  }

  /** Base-26 digit i - 1 of binary / 26 is digit i of binary. */
  lemma SteamDigitShift(binary: nat, i: nat)
    requires i >= 1
    ensures (binary / 26 / Pow(26, i - 1)) % 26 == (binary / Pow(26, i)) % 26
  {
    DivDiv(binary, 26, Pow(26, i - 1));
    assert Pow(26, i) == 26 * Pow(26, i - 1);
  }

  /** `s` with '0's inserted in front until it is n characters long. */
  function ZeroPad(s: string, n: nat): (r: string)
    requires |s| <= n
    ensures |r| == n && r[n - |s|..] == s
    ensures forall i :: 0 <= i < n - |s| ==> r[i] == '0'
  {
    seq(n - |s|, _ => '0') + s
  }

  /** The decimal code: `binary mod 10^digits`, zero-padded to exactly `digits` digits. */
  function DecimalCode(binary: nat, digits: nat): (s: string)
    requires digits >= 1
    ensures |s| == digits && IsDecimal(s)
    ensures DecimalValue(s) == binary % Pow10(digits)
  {
    var v := binary % Pow10(digits);
    NatToStringLength(v, digits);
    var s := ZeroPad(NatToString(v), digits);
    DecimalValueZeros(s[..digits - |NatToString(v)|], NatToString(v));
    assert s == s[..digits - |NatToString(v)|] + NatToString(v);
    s
  }

  /** The digit counts getHOTP can produce: any for the Steam issuer, otherwise 6 or 8. */
  predicate DigitsAllowed(issuerExt: string, digits: int)
  {
    issuerExt == "Steam" || digits == 6 || digits == 8
  }

  /** getHOTP's formatting of the truncated value. */
  function FormatCode(issuerExt: string, digits: int, binary: nat): (code: string)
    requires DigitsAllowed(issuerExt, digits)
    ensures |code| == if issuerExt == "Steam" then (if digits > 0 then digits else 0) else digits
  {
    if issuerExt == "Steam" then SteamCode(binary, if digits > 0 then digits else 0)
    else DecimalCode(binary, digits)
  }

  /**
   * The shape of a code: for Steam, max(digits, 0) symbols of the Steam
   * alphabet, symbol i being base-26 digit i; otherwise exactly `digits`
   * decimal digits whose value is `binary mod 10^digits`.
   */
  lemma FormatCodeShape(issuerExt: string, digits: int, binary: nat)
    requires DigitsAllowed(issuerExt, digits)
    ensures var code := FormatCode(issuerExt, digits, binary);
      if issuerExt == "Steam" then
        |code| == (if digits > 0 then digits else 0) &&
        (forall i :: 0 <= i < |code| ==> code[i] in SteamChars) &&
        (forall i :: 0 <= i < |code| ==> code[i] == SteamChars[(binary / Pow(26, i)) % 26])
      else
        |code| == digits && IsDecimal(code) && DecimalValue(code) == binary % Pow10(digits)
  {
    if issuerExt == "Steam" {
      var code := FormatCode(issuerExt, digits, binary);
      forall i | 0 <= i < |code|
        ensures code[i] == SteamChars[(binary / Pow(26, i)) % 26] && code[i] in SteamChars
      {
        SteamCodeAt(binary, |code|, i);
      }
    }
  }

  /** The worked example of section 5.4 of RFC 4226: digest 1f8698690e02ca16618550ef7f19da8e945b555a. */
  lemma Rfc4226Example(d: Digest)
    requires d == [0x1f, 0x86, 0x98, 0x69, 0x0e, 0x02, 0xca, 0x16, 0x61, 0x85,
                   0x50, 0xef, 0x7f, 0x19, 0xda, 0x8e, 0x94, 0x5b, 0x55, 0x5a]
    ensures Offset(d) == 10 && Truncate(d) == 0x50ef7f19 && FormatCode("", 6, Truncate(d)) == "872921"
  {
    assert Offset(d) == 10;
    assert Truncate(d) == 1357872921;
    SixDigitCode(1357872921, 8, 7, 2, 9, 2, 1);
  }


  /**
   * The counts of Appendix D of RFC 4226, like any count below 256, are
   * hashed as seven zero bytes followed by the count.
   */
  lemma EncodeSmallCounter(c: nat)
    requires c < 256
    ensures EncodeCounter(c) == [0, 0, 0, 0, 0, 0, 0, c]
  {
    assert BigEndian(0, 7) == [0, 0, 0, 0, 0, 0, 0];
  }

  /** The number with the decimal digits a to f, a not zero, is written as those six digits. */
  lemma SixDigitText(v: nat, a: nat, b: nat, c: nat, d: nat, e: nat, f: nat)
    requires 1 <= a < 10 && b < 10 && c < 10 && d < 10 && e < 10 && f < 10
    requires v == ((((a * 10 + b) * 10 + c) * 10 + d) * 10 + e) * 10 + f
    ensures NatToString(v) == [DigitChar(a), DigitChar(b), DigitChar(c), DigitChar(d), DigitChar(e), DigitChar(f)]
  {
    var ca, cb, cc, cd, ce := DigitChar(a), DigitChar(b), DigitChar(c), DigitChar(d), DigitChar(e);
    var v2 := a * 10 + b;
    var v3 := v2 * 10 + c;
    var v4 := v3 * 10 + d;
    var v5 := v4 * 10 + e;
    NatToStringAppend(a, b);
    assert NatToString(v2) == [ca, cb];
    NatToStringAppend(v2, c);
    assert NatToString(v3) == [ca, cb, cc];
    NatToStringAppend(v3, d);
    assert NatToString(v4) == [ca, cb, cc, cd];
    NatToStringAppend(v4, e);
    assert NatToString(v5) == [ca, cb, cc, cd, ce];
    NatToStringAppend(v5, f);
  }

  /**
   * A non-Steam value whose residue modulo 10^6 has the decimal digits a to f,
   * a not zero, formats to exactly those six digits.
   */
  lemma SixDigitCode(binary: nat, a: nat, b: nat, c: nat, d: nat, e: nat, f: nat)
    requires 1 <= a < 10 && b < 10 && c < 10 && d < 10 && e < 10 && f < 10
    requires binary % 1000000 == ((((a * 10 + b) * 10 + c) * 10 + d) * 10 + e) * 10 + f
    ensures FormatCode("", 6, binary) ==
            [DigitChar(a), DigitChar(b), DigitChar(c), DigitChar(d), DigitChar(e), DigitChar(f)]
  {
    var v := binary % 1000000;
    SixDigitText(v, a, b, c, d, e, f);
    assert Pow10(6) == 1000000;
    assert ZeroPad(NatToString(v), 6) == NatToString(v);
  }

  // The test vectors of Appendix D of RFC 4226: the HMAC-SHA-1 digest it
  // publishes for each count 0 to 9 under the ASCII secret
  // "12345678901234567890", and the truncated value and six-digit HOTP value
  // it publishes for that digest.

  lemma Rfc4226Count0(d: Digest)
    requires d == [0xcc, 0x93, 0xcf, 0x18, 0x50, 0x8d, 0x94, 0x93, 0x4c, 0x64,
                   0xb6, 0x5d, 0x8b, 0xa7, 0x66, 0x7f, 0xb7, 0xcd, 0xe4, 0xb0]
    ensures Truncate(d) == 1284755224 && FormatCode("", 6, Truncate(d)) == "755224"
  {
    assert Truncate(d) == 1284755224;
    SixDigitCode(1284755224, 7, 5, 5, 2, 2, 4);
  }

  lemma Rfc4226Count1(d: Digest)
    requires d == [0x75, 0xa4, 0x8a, 0x19, 0xd4, 0xcb, 0xe1, 0x00, 0x64, 0x4e,
                   0x8a, 0xc1, 0x39, 0x7e, 0xea, 0x74, 0x7a, 0x2d, 0x33, 0xab]
    ensures Truncate(d) == 1094287082 && FormatCode("", 6, Truncate(d)) == "287082"
  {
    assert Truncate(d) == 1094287082;
    SixDigitCode(1094287082, 2, 8, 7, 0, 8, 2);
  }

  lemma Rfc4226Count2(d: Digest)
    requires d == [0x0b, 0xac, 0xb7, 0xfa, 0x08, 0x2f, 0xef, 0x30, 0x78, 0x22,
                   0x11, 0x93, 0x8b, 0xc1, 0xc5, 0xe7, 0x04, 0x16, 0xff, 0x44]
    ensures Truncate(d) == 137359152 && FormatCode("", 6, Truncate(d)) == "359152"
  {
    assert Truncate(d) == 137359152;
    SixDigitCode(137359152, 3, 5, 9, 1, 5, 2);
  }

  lemma Rfc4226Count3(d: Digest)
    requires d == [0x66, 0xc2, 0x82, 0x27, 0xd0, 0x3a, 0x2d, 0x55, 0x29, 0x26,
                   0x2f, 0xf0, 0x16, 0xa1, 0xe6, 0xef, 0x76, 0x55, 0x7e, 0xce]
    ensures Truncate(d) == 1726969429 && FormatCode("", 6, Truncate(d)) == "969429"
  {
    assert Truncate(d) == 1726969429;
    SixDigitCode(1726969429, 9, 6, 9, 4, 2, 9);
  }

  lemma Rfc4226Count4(d: Digest)
    requires d == [0xa9, 0x04, 0xc9, 0x00, 0xa6, 0x4b, 0x35, 0x90, 0x98, 0x74,
                   0xb3, 0x3e, 0x61, 0xc5, 0x93, 0x8a, 0x8e, 0x15, 0xed, 0x1c]
    ensures Truncate(d) == 1640338314 && FormatCode("", 6, Truncate(d)) == "338314"
  {
    assert Truncate(d) == 1640338314;
    SixDigitCode(1640338314, 3, 3, 8, 3, 1, 4);
  }

  lemma Rfc4226Count5(d: Digest)
    requires d == [0xa3, 0x7e, 0x78, 0x3d, 0x7b, 0x72, 0x33, 0xc0, 0x83, 0xd4,
                   0xf6, 0x29, 0x26, 0xc7, 0xa2, 0x5f, 0x23, 0x8d, 0x03, 0x16]
    ensures Truncate(d) == 868254676 && FormatCode("", 6, Truncate(d)) == "254676"
  {
    assert Truncate(d) == 868254676;
    SixDigitCode(868254676, 2, 5, 4, 6, 7, 6);
  }

  lemma Rfc4226Count6(d: Digest)
    requires d == [0xbc, 0x9c, 0xd2, 0x85, 0x61, 0x04, 0x2c, 0x83, 0xf2, 0x19,
                   0x32, 0x4d, 0x3c, 0x60, 0x72, 0x56, 0xc0, 0x32, 0x72, 0xae]
    ensures Truncate(d) == 1918287922 && FormatCode("", 6, Truncate(d)) == "287922"
  {
    assert Truncate(d) == 1918287922;
    SixDigitCode(1918287922, 2, 8, 7, 9, 2, 2);
  }

  lemma Rfc4226Count7(d: Digest)
    requires d == [0xa4, 0xfb, 0x96, 0x0c, 0x0b, 0xc0, 0x6e, 0x1e, 0xab, 0xb8,
                   0x04, 0xe5, 0xb3, 0x97, 0xcd, 0xc4, 0xb4, 0x55, 0x96, 0xfa]
    ensures Truncate(d) == 82162583 && FormatCode("", 6, Truncate(d)) == "162583"
  {
    assert Truncate(d) == 82162583;
    SixDigitCode(82162583, 1, 6, 2, 5, 8, 3);
  }

  lemma Rfc4226Count8(d: Digest)
    requires d == [0x1b, 0x3c, 0x89, 0xf6, 0x5e, 0x6c, 0x9e, 0x88, 0x30, 0x12,
                   0x05, 0x28, 0x23, 0x44, 0x3f, 0x04, 0x8b, 0x43, 0x32, 0xdb]
    ensures Truncate(d) == 673399871 && FormatCode("", 6, Truncate(d)) == "399871"
  {
    assert Truncate(d) == 673399871;
    SixDigitCode(673399871, 3, 9, 9, 8, 7, 1);
  }

  lemma Rfc4226Count9(d: Digest)
    requires d == [0x16, 0x37, 0x40, 0x98, 0x09, 0xa6, 0x79, 0xdc, 0x69, 0x82,
                   0x07, 0x31, 0x0c, 0x8c, 0x7f, 0xc0, 0x72, 0x90, 0xd9, 0xe5]
    ensures Truncate(d) == 645520489 && FormatCode("", 6, Truncate(d)) == "520489"
  {
    assert Truncate(d) == 645520489;
    SixDigitCode(645520489, 5, 2, 0, 4, 8, 9);
  }
}

=== FILE: JavaLang.dfy ===
/** Optional values: Java's `null` on references the token code tests against null. */
module Options {
  datatype Option<+T> = None | Some(value: T)
}

/**
 * The parts of Java's primitive semantics that Token relies on: fixed-width
 * integers and their wrap-around, truncating division, decimal conversion
 * (`Integer.toString`, `Integer.parseInt`, `Long.parseLong`) and
 * `String.toUpperCase`, `indexOf` and `replaceFirst` on plain characters.
 */
module JavaLang {
  import opened Options

  const IntMin: int := -0x8000_0000
  const IntMax: int := 0x7FFF_FFFF
  const LongMin: int := -0x8000_0000_0000_0000
  const LongMax: int := 0x7FFF_FFFF_FFFF_FFFF
  const TwoTo32: int := 0x1_0000_0000
  const TwoTo64: int := 0x1_0000_0000_0000_0000

  /** The Java `int` holding an exact integer result: two's-complement wrap-around. */
  function Int(x: int): (r: int)
    ensures IntMin <= r <= IntMax
    ensures IntMin <= x <= IntMax ==> r == x
    ensures (r - x) % TwoTo32 == 0
  {
    (x - IntMin) % TwoTo32 + IntMin
  }

  /** The Java `long` holding an exact integer result: two's-complement wrap-around. */
  function Long(x: int): (r: int)
    ensures LongMin <= r <= LongMax
    ensures LongMin <= x <= LongMax ==> r == x
    ensures (r - x) % TwoTo64 == 0
  {
    (x - LongMin) % TwoTo64 + LongMin
  }

  /** Java's `/` on a positive divisor: the quotient is truncated toward zero. */
  function JavaDiv(a: int, b: int): (q: int)
    requires b > 0
    ensures a >= 0 ==> 0 <= q * b <= a < q * b + b
    ensures a < 0 ==> q * b - b < a <= q * b <= 0
  {
    if a >= 0 then
      DivBounds(a, b);
      a / b
    else
      DivBounds(-a, b);
      -((-a) / b)
  }

  /** Truncation toward zero: the quotient lies between 0 and the dividend, and is 0 for |a| < b. */
  lemma JavaDivTowardZero(a: int, b: int)
    requires b > 0
    ensures a >= 0 ==> 0 <= JavaDiv(a, b) <= a
    ensures a < 0 ==> a <= JavaDiv(a, b) <= 0
  {
    var q := JavaDiv(a, b);
    MulAtLeast(q, b);
    MulAtLeastSelf(q, b);
  }

  lemma MulAtLeastSelf(q: int, b: int)
    requires b >= 1
    ensures q >= 0 ==> q * b >= q
    ensures q <= 0 ==> q * b <= q
  {
    var c := b - 1;
    assert q * b == q * c + q;
    if q >= 0 {
      assert q * c >= 0;
    } else {
      assert q * c <= 0;
    }
  }

  /** A dividend strictly between -b * c and b * c has a quotient strictly between -c and c. */
  lemma JavaDivBelow(a: int, b: int, c: int)
    requires b > 0 && c > 0 && -(b * c) < a < b * c
    ensures -c < JavaDiv(a, b) < c
  {
    var q := JavaDiv(a, b);
    MulAtLeast(q - c + 1, b);
    MulAtLeast(q + c - 1, b);
    assert (q - c + 1) * b == q * b - c * b + b;
    assert (q + c - 1) * b == q * b + c * b - b;
    assert b * c == c * b;
  }

  lemma DivBounds(a: nat, b: int)
    requires b > 0
    ensures 0 <= a / b && 0 <= (a / b) * b <= a < (a / b) * b + b
  {
    assert a == (a / b) * b + a % b;
  }

  /** Euclidean division is unique: a quotient and a remainder in range are THE quotient and remainder. */
  lemma DivModUnique(x: int, m: int, k: int, t: int)
    requires m > 0 && x == k * m + t && 0 <= t < m
    ensures x / m == k && x % m == t
  {
    var q, r := x / m, x % m;
    assert x == q * m + r;
    var d := q - k;
    assert d * m == t - r;
    MulAtLeast(d, m);
  }

  lemma MulAtLeast(d: int, m: int)
    requires m > 0
    ensures d >= 1 ==> d * m >= m
    ensures d <= -1 ==> d * m <= -m
  {
    if d >= 1 {
      assert d * m == (d - 1) * m + m;
    } else if d <= -1 {
      assert d * m == (d + 1) * m - m;
    }
  }

  /** Dividing by b, then by c, is dividing by b * c; the remainders combine the same way. */
  lemma DivDiv(x: nat, b: nat, c: nat)
    requires b > 0 && c > 0
    ensures x / b / c == x / (b * c)
    ensures (x / b % c) * b + x % b == x % (b * c)
  {
    var q, r := x / b, x % b;
    var q2, r2 := q / c, q % c;
    assert x == q * b + r;
    assert q == q2 * c + r2;
    assert x == q2 * (b * c) + (r2 * b + r);
    assert r2 * b + r < b * c by {
      assert r2 <= c - 1;
      assert r2 * b <= (c - 1) * b;
    }
    DivModUnique(x, b * c, q2, r2 * b + r);
  }

  // ---------------------------------------------------------------------
  // Decimal text

  predicate IsDigit(c: char) { '0' <= c <= '9' }

  predicate IsDecimal(s: string) { forall i :: 0 <= i < |s| ==> IsDigit(s[i]) }

  function DigitChar(d: nat): (c: char)
    requires d < 10
    ensures IsDigit(c)
  {
    ('0' as int + d) as char
  }

  function DigitValue(c: char): nat
    requires IsDigit(c)
  {
    c as int - '0' as int
  }

  function Pow(b: nat, k: nat): (r: nat)
    ensures b >= 1 ==> r >= 1
  {
    if k == 0 then 1 else b * Pow(b, k - 1)
  }

  function Pow10(k: nat): (r: nat)
    ensures r >= 1
  {
    Pow(10, k)
  }

  /** The number a string of decimal digits denotes, most significant digit first. */
  function DecimalValue(s: string): nat
    requires IsDecimal(s)
  {
    if s == [] then 0 else DecimalValue(s[..|s| - 1]) * 10 + DigitValue(s[|s| - 1])
  }

  /** `Integer.toString` / `Long.toString` of a non-negative number. */
  function NatToString(n: nat): (s: string)
    ensures 1 <= |s| && IsDecimal(s) && DecimalValue(s) == n
    ensures |s| > 1 ==> s[0] != '0'
  {
    if n < 10 then [DigitChar(n)]
    else
      var s := NatToString(n / 10) + [DigitChar(n % 10)];
      assert s[..|s| - 1] == NatToString(n / 10);
      s
  }

  /** `Integer.toString` / `Long.toString`: a minus sign, then the magnitude. */
  function IntToString(n: int): (s: string)
    ensures IsIntegerText(s) && IntegerValue(s) == n
    ensures n >= 0 ==> IsDecimal(s) && (|s| > 1 ==> s[0] != '0')
    ensures n < 0 ==> s[0] == '-' && s[1] != '0'
  {
    if n < 0 then
      var s := "-" + NatToString(-n);
      assert Digits(s) == NatToString(-n);
      s
    else NatToString(n)
  }

  /** A number below 10^k is written with at most k digits. */
  lemma {:induction false} NatToStringLength(n: nat, k: nat)
    requires 1 <= k && n < Pow10(k)
    ensures |NatToString(n)| <= k
  {
    if n >= 10 {
      assert k > 1;
      assert n / 10 < Pow10(k - 1);
      NatToStringLength(n / 10, k - 1);
    }
  }

  /** Zeros in front do not change the value of a decimal string. */
  lemma {:induction false} DecimalValueZeros(z: string, s: string)
    requires forall i :: 0 <= i < |z| ==> z[i] == '0'
    requires IsDecimal(s)
    ensures IsDecimal(z + s) && DecimalValue(z + s) == DecimalValue(s)
  {
    if s == [] {
      assert z + s == z;
      AllZerosValue(z);
    } else {
      var t := z + s;
      assert t[..|t| - 1] == z + s[..|s| - 1];
      DecimalValueZeros(z, s[..|s| - 1]);
    }
  }

  lemma {:induction false} AllZerosValue(z: string)
    requires forall i :: 0 <= i < |z| ==> z[i] == '0'
    ensures IsDecimal(z) && DecimalValue(z) == 0
  {
    if z != [] {
      AllZerosValue(z[..|z| - 1]);
    }
  }

  /** Appending a digit to a positive number appends its character to the decimal text. */
  lemma NatToStringAppend(q: nat, x: nat)
    requires q >= 1 && x < 10
    ensures NatToString(q * 10 + x) == NatToString(q) + [DigitChar(x)]
  {
    assert (q * 10 + x) / 10 == q && (q * 10 + x) % 10 == x;
  }

  /**
   * `Integer.parseInt` (lo, hi = the int range) and `Long.parseLong` (the long
   * range): an optional '+' or '-', then one or more decimal digits, and the
   * value must fit; anything else is a NumberFormatException, here None.
   */
  function ParseInteger(s: string, lo: int, hi: int): (r: Option<int>)
    ensures r.Some? <==> IsIntegerText(s) && lo <= IntegerValue(s) <= hi
    ensures r.Some? ==> r.value == IntegerValue(s)
    ensures r.Some? ==> lo <= r.value <= hi
    ensures r.Some? ==> s != [] && (s[0] == '-' || s[0] == '+' || IsDigit(s[0]))
  {
    if s == [] then None
    else
      var body := if s[0] == '-' || s[0] == '+' then s[1..] else s;
      if body == [] || !IsDecimal(body) then None
      else
        var m: int := DecimalValue(body);
        var v := if s[0] == '-' then -m else m;
        if lo <= v <= hi then Some(v) else None
  }

  /** The digits of an integer literal: what follows its sign, if it has one. */
  function Digits(s: string): string
  {
    if s != [] && (s[0] == '-' || s[0] == '+') then s[1..] else s
  }

  /** An optional sign followed by one or more decimal digits. */
  predicate IsIntegerText(s: string)
  {
    Digits(s) != [] && IsDecimal(Digits(s))
  }

  /** The signed value of an integer literal. */
  function IntegerValue(s: string): int
    requires IsIntegerText(s)
  {
    var m: int := DecimalValue(Digits(s));
    if s[0] == '-' then -m else m
  }

  /** What `toString` writes, `parseInt`/`parseLong` reads back. */
  lemma ParseIntegerOfToString(n: int, lo: int, hi: int)
    requires lo <= n <= hi
    ensures ParseInteger(IntToString(n), lo, hi) == Some(n)
  {
  }

  // ---------------------------------------------------------------------
  // Characters and strings

  /** `String.indexOf(c)`, with |s| in place of Java's -1 for "absent". */
  function FindFirst(s: string, c: char): (k: nat)
    ensures k <= |s|
    ensures k < |s| ==> s[k] == c
    ensures c !in s[..k]
  {
    if s == [] || s[0] == c then 0
    else
      var k := 1 + FindFirst(s[1..], c);
      assert s[..k] == [s[0]] + s[1..][..k - 1];
      k
  }

  /** `String.replaceFirst` of a one-character literal pattern by "": the first occurrence goes. */
  function RemoveFirst(s: string, c: char): (r: string)
    ensures c !in s ==> r == s
    ensures c in s ==> |r| == |s| - 1
    ensures |s| > 0 && s[0] == c ==> r == s[1..]
    ensures var k := FindFirst(s, c); k < |s| ==> r == s[..k] + s[k + 1..]
  {
    var k := FindFirst(s, c);
    if k == |s| then
      assert s[..k] == s;
      s
    else s[..k] + s[k + 1..]
  }

  predicate IsLowerAscii(c: char) { 'a' <= c <= 'z' }

  function UpperChar(c: char): char
  {
    if IsLowerAscii(c) then (c as int - 32) as char else c
  }

  /** `toUpperCase(Locale.US)` on ASCII letters. */
  function AsciiUpper(s: string): (r: string)
    ensures |r| == |s|
    ensures forall i :: 0 <= i < |s| ==> !IsLowerAscii(r[i])
    ensures forall i :: 0 <= i < |s| && !IsLowerAscii(s[i]) ==> r[i] == s[i]
    ensures forall i :: 0 <= i < |s| && IsLowerAscii(s[i]) ==> r[i] as int == s[i] as int - 32
  {
    if s == [] then [] else [UpperChar(s[0])] + AsciiUpper(s[1..])
  }

  /** Upper-casing an upper-cased name changes nothing. */
  lemma AsciiUpperIdempotent(s: string)
    ensures AsciiUpper(AsciiUpper(s)) == AsciiUpper(s)
  {
    var u := AsciiUpper(s);
    var uu := AsciiUpper(u);
    assert forall i :: 0 <= i < |u| ==> uu[i] == u[i];
  }
}

=== FILE: Token.dfy ===
/**
 * The Token object itself: the fields the constructor fills in from an
 * otpauth:// URI, the two aliases and the HOTP counter that later calls
 * update, and the methods that compute codes. Each method is proved to do
 * what the matching function of TokenSpec describes.
 */
module Tokens {
  import opened Options
  import opened JavaLang
  import opened Collaborators
  import opened Hotp
  import opened TokenSpec

  class Token {
    const issuerInt: Option<string>
    const issuerExt: string
    const tokenLabel: string
    const secret: seq<byte>
    const digits: int
    var issuerAlt: Option<string>
    var labelAlt: Option<string>
    const kind: TokenType
    const algo: string
    var counter: int
    const period: int

    /** The token's fields as a value. */
    function State(): TokenState
      reads this
    {
      TokenState(issuerInt, issuerExt, tokenLabel, secret, digits, issuerAlt, labelAlt, kind, algo, counter, period)
    }

    predicate Valid()
      reads this
    {
      Wellformed(State())
    }

    /** getIssuer: the issuer alias when there is one, otherwise the issuer of the path. */
    function Issuer(): (r: string)
      reads this
      ensures issuerAlt.Some? ==> r == issuerAlt.value
      ensures Valid() ==> (r == issuerExt <==> issuerAlt.None?)
    {
      Effective(issuerAlt, issuerExt)
    }

    /** getLabel: the label alias when there is one, otherwise the label of the path. */
    function Label(): (r: string)
      reads this
      ensures labelAlt.Some? ==> r == labelAlt.value
      ensures Valid() ==> (r == tokenLabel <==> labelAlt.None?)
    {
      Effective(labelAlt, tokenLabel)
    }

    /** The field assignments of the constructor, before the aliases are applied. */
    constructor (issuerInt: Option<string>, issuerExt: string, tokenLabel: string, secret: seq<byte>,
                 digits: int, kind: TokenType, algo: string, counter: int, period: int)
      requires Wellformed(TokenState(issuerInt, issuerExt, tokenLabel, secret, digits, None, None,
                                     kind, algo, counter, period))
      ensures Valid()
      ensures State() == TokenState(issuerInt, issuerExt, tokenLabel, secret, digits, None, None,
                                    kind, algo, counter, period)
    {
      this.issuerInt := issuerInt;
      this.issuerExt := issuerExt;
      this.tokenLabel := tokenLabel;
      this.secret := secret;
      this.digits := digits;
      this.issuerAlt := None;
      this.labelAlt := None;
      this.kind := kind;
      this.algo := algo;
      this.counter := counter;
      this.period := period;
    }

    /**
     * Token(uri, internal): validateTokenURI, the path check and split, then
     * the query parameters; a token is produced exactly when ParseUri yields
     * one, and holds what ParseUri describes.
     */
    static method FromUri(uri: Uri, internal: bool, mac: Mac, codec: Base32Codec) returns (r: Result<Token>)
      ensures r.TokenUriInvalid? <==> ParseUri(uri, internal, mac, codec).TokenUriInvalid?
      ensures r.Ok? ==> fresh(r.value) && r.value.Valid()
                        && r.value.State() == ParseUri(uri, internal, mac, codec).value
    {
      var kind := ValidateUri(uri);
      if kind.None? {
        return TokenUriInvalid;
      }
      var path := RemoveFirst(uri.path.value, '/');
      if |path| == 0 {
        return TokenUriInvalid;
      }
      var (issuerExt, lbl) := SplitAtColon(path);
      r := ReadParameters(uri, mac, codec, kind.value, issuerExt, lbl);
      if r.Ok? && internal {
        r.value.SetIssuer(QueryParameter(uri.query, "issueralt"));
        r.value.SetLabel(QueryParameter(uri.query, "labelalt"));
      }
    }

    /** validateTokenURI: the scheme must be otpauth, the authority totp or hotp, and a path present. */
    static method ValidateUri(uri: Uri) returns (kind: Option<TokenType>)
      ensures kind == UriKind(uri)
    {
      if uri.scheme != Some("otpauth") {
        return None;
      }
      if uri.authority.None? {
        return None;
      }
      if uri.authority == Some("totp") {
        kind := Some(TOTP);
      } else if uri.authority == Some("hotp") {
        kind := Some(HOTP);
      } else {
        return None;
      }
      if uri.path.None? {
        return None;
      }
    }

    /**
     * The constructor after the path is split: each parameter is read, given
     * its default and checked in the constructor's order, then the fields
     * are assigned.
     */
    static method ReadParameters(uri: Uri, mac: Mac, codec: Base32Codec,
                                 kind: TokenType, issuerExt: string, lbl: string) returns (r: Result<Token>)
      requires ':' !in issuerExt
      ensures r.TokenUriInvalid? <==> ParseParameters(uri, mac, codec, kind, issuerExt, lbl).TokenUriInvalid?
      ensures r.Ok? ==> fresh(r.value) && r.value.Valid()
                        && r.value.State() == ParseParameters(uri, mac, codec, kind, issuerExt, lbl).value
    {
      var issuerInt := QueryParameter(uri.query, "issuer");

      var algo := AsciiUpper(ParamOr(uri, "algorithm", "sha1"));
      if !mac.supported("Hmac" + algo) {
        return TokenUriInvalid;
      }

      var d := ParseInteger(ParamOr(uri, "digits", "6"), IntMin, IntMax);
      if d.None? {
        return TokenUriInvalid;
      }
      var digits := d.value;
      if issuerExt != "Steam" && digits != 6 && digits != 8 {
        return TokenUriInvalid;
      }

      var p := ParseInteger(ParamOr(uri, "period", "30"), IntMin, IntMax);
      if p.None? {
        return TokenUriInvalid;
      }
      var period := if p.value > 0 then p.value else 30;

      var counter := 0;
      if kind == HOTP {
        var c := ParseInteger(ParamOr(uri, "counter", "0"), LongMin, LongMax);
        if c.None? {
          return TokenUriInvalid;
        }
        counter := c.value;
      }

      var s := QueryParameter(uri.query, "secret");
      if s.None? {
        return TokenUriInvalid;
      }
      var secret := codec.decode(s.value);
      if secret.None? {
        return TokenUriInvalid;
      }

      assert ParseParameters(uri, mac, codec, kind, issuerExt, lbl) ==
             Ok(TokenState(issuerInt, issuerExt, lbl, secret.value, digits, None, None, kind, algo, counter, period));
      var token := new Token(issuerInt, issuerExt, lbl, secret.value, digits, kind, algo, counter, period);
      return Ok(token);
    }

    /** setIssuer: a null request, or one equal to the path's issuer, clears the alias. */
    method SetIssuer(issuer: Option<string>)
      requires Valid()
      modifies this`issuerAlt
      ensures Valid()
      ensures State() == old(State()).(issuerAlt := NormalizedAlias(issuer, issuerExt))
      ensures Issuer() == if issuer.Some? then issuer.value else issuerExt
    {
      issuerAlt := if issuer.None? || issuer.value == issuerExt then None else issuer;
    }

    /** setLabel: a null request, or one equal to the path's label, clears the alias. */
    method SetLabel(lbl: Option<string>)
      requires Valid()
      modifies this`labelAlt
      ensures Valid()
      ensures State() == old(State()).(labelAlt := NormalizedAlias(lbl, tokenLabel))
      ensures Label() == if lbl.Some? then lbl.value else tokenLabel
    {
      labelAlt := if lbl.None? || lbl.value == tokenLabel then None else lbl;
    }

    /**
     * getHOTP(counter): the divisor 10^digits, the keyed hash of the counter
     * block, truncation, then the Steam symbols or the zero-padded decimal
     * digits; "" when the keyed hash fails.
     */
    method HotpCode(c: int, mac: Mac) returns (code: string)
      requires Valid()
      ensures code == Otp(State(), mac, c)
    {
      var div := Divisor(digits);
      var digest := mac.hmac("Hmac" + algo, secret, EncodeCounter(c));
      if digest.None? {
        return "";
      }
      var binary := Truncate(digest.value);
      if issuerExt == "Steam" {
        code := SteamSymbols(binary, digits);
      } else {
        var v := binary % div;
        NatToStringLength(v, digits);
        code := PadWithZeros(NatToString(v), digits);
      }
    }

    /**
     * generateCodes at `cur` milliseconds: HOTP codes the counter and moves
     * it on by one; TOTP codes the current time step and the next.
     */
    method GenerateCodes(cur: int, mac: Mac) returns (r: TokenCode)
      requires Valid()
      modifies this`counter
      ensures Valid()
      ensures (r, State()) == Generate(old(State()), mac, cur)
    {
      ghost var t := State();
      match kind
      case HOTP =>
        // counter++ hands getHOTP the value before the increment; getHOTP does not read the field
        var code := HotpCode(counter, mac);
        counter := Long(counter + 1);
        r := TokenCode(code, cur, cur + period * 1000, None);
        assert State() == t.(counter := Long(t.counter + 1));
      case TOTP =>
        var step := TimeStep(State(), cur);
        var now := HotpCode(step, mac);
        var next := HotpCode(step + 1, mac);
        assert State() == t;
        r := TokenCode(now, step * period * 1000, (step + 1) * period * 1000,
                       Some(TokenCode(next, (step + 1) * period * 1000, (step + 2) * period * 1000, None)));
    }
  }

  /** getHOTP's divisor: ten multiplied in `digits` times in Java int arithmetic, so 10^digits up to nine digits. */
  method Divisor(digits: int) returns (div: int)
    ensures IntMin <= div <= IntMax
    ensures 0 <= digits <= 9 ==> div == Pow10(digits)
  {
    div := 1;
    var i := digits;
    while i > 0
      invariant (if digits > 0 then 0 <= i <= digits else i == digits)
      invariant IntMin <= div <= IntMax
      invariant 0 <= digits <= 9 ==> div == Pow10(digits - i)
    {
      PowTenStep(digits - i);
      div := Int(div * 10);
      i := i - 1;
    }
  }

  /** getHOTP's Steam loop: one symbol per digit, the least significant base-26 digit first. */
  method SteamSymbols(binary: nat, digits: int) returns (code: string)
    ensures code == SteamCode(binary, if digits > 0 then digits else 0)
  {
    var n := if digits > 0 then digits else 0;
    var b := binary;
    code := "";
    var i := 0;
    while i < digits
      invariant 0 <= i <= n
      invariant code + SteamCode(b, n - i) == SteamCode(binary, n)
    {
      ghost var rest := SteamCode(b / 26, n - i - 1);
      assert SteamCode(b, n - i) == [SteamChars[b % 26]] + rest;
      assert (code + [SteamChars[b % 26]]) + rest == code + ([SteamChars[b % 26]] + rest);
      code := code + [SteamChars[b % 26]];
      b := b / 26;
      i := i + 1;
    }
  }

  /** getHOTP's padding loop: '0' is inserted in front until the code has `digits` characters. */
  method PadWithZeros(s: string, digits: int) returns (code: string)
    requires |s| <= digits
    ensures code == ZeroPad(s, digits)
  {
    code := s;
    while |code| != digits
      invariant |s| <= |code| <= digits
      invariant code == ZeroPad(s, |code|)
      decreases digits - |code|
    {
      assert "0" + ZeroPad(s, |code|) == ZeroPad(s, |code| + 1) by {
        assert ['0'] + seq(|code| - |s|, _ => '0') == seq(|code| + 1 - |s|, _ => '0');
      }
      code := "0" + code;
    }
  }

  /** One more factor of ten stays within a Java int up to 10^9. */
  lemma PowTenStep(k: nat)
    ensures k < 9 ==> Pow10(k + 1) == Pow10(k) * 10 <= IntMax
  {
    if k < 9 {
      assert Pow10(k + 1) == 10 * Pow10(k);
      PowTenMonotone(k + 1, 9);
      assert Pow10(9) == 1_000_000_000;
    }
  }

  lemma {:induction false} PowTenMonotone(j: nat, k: nat)
    requires j <= k
    ensures Pow10(j) <= Pow10(k)
  {
    if j < k {
      PowTenMonotone(j, k - 1);
      assert Pow10(k) == 10 * Pow10(k - 1);
    }
  }
}

=== FILE: TokenExport.dfy ===
/**
 * Export and re-import: what constructing a token from its own toUri gives
 * back. Every base field survives, the aliases are dropped, the HOTP counter
 * comes back one ahead, and the issuer parameter is always present. The path
 * survives only when it does not depend on a ':' or '/' that toUri loses;
 * ToUriCorrected keeps it in every case.
 */
module TokenExport {
  import opened Options
  import opened JavaLang
  import opened Collaborators
  import opened Hotp
  import opened TokenSpec
  import opened TokenProperties

  /** The token a re-import of the export yields when the path survives. */
  function Exported(t: TokenState): TokenState
  {
    t.(issuerInt := Some(ExportedIssuer(t)), issuerAlt := None, labelAlt := None,
       counter := if t.kind == HOTP then Long(t.counter + 1) else t.counter)
  }

  /** A key's first pair decides what getQueryParameter returns. */
  lemma QueryParameterAt(query: seq<(string, string)>, i: nat, key: string)
    requires i < |query| && query[i].0 == key
    requires forall j :: 0 <= j < i ==> query[j].0 != key
    ensures QueryParameter(query, key) == Some(query[i].1)
  {
  }

  /** What each key of the export reads back as. */
  lemma ExportQueryReads(t: TokenState, codec: Base32Codec)
    ensures var q := ExportQuery(t, codec);
            && QueryParameter(q, "secret") == Some(codec.encode(t.secret))
            && QueryParameter(q, "issuer") == Some(ExportedIssuer(t))
            && QueryParameter(q, "algorithm") == Some(t.algo)
            && QueryParameter(q, "digits") == Some(IntToString(t.digits))
            && QueryParameter(q, "period") == Some(IntToString(t.period))
            && (t.kind == HOTP ==> QueryParameter(q, "counter") == Some(IntToString(Long(t.counter + 1))))
            && (t.kind == TOTP ==> QueryParameter(q, "counter").None?)
            && QueryParameter(q, "issueralt").None? && QueryParameter(q, "labelalt").None?
  {
    CommonReadsNames(t, codec);
    CommonReadsNumbers(t, codec);
    ExportKeepsCommon(t, codec, "secret");
    ExportKeepsCommon(t, codec, "issuer");
    ExportKeepsCommon(t, codec, "algorithm");
    ExportKeepsCommon(t, codec, "digits");
    ExportKeepsCommon(t, codec, "period");
    CounterKeyIsLast(t, codec);
    if t.kind == HOTP {
      LastPairReads(CommonQuery(t, codec), "counter", IntToString(Long(t.counter + 1)));
      HotpQuery(t, codec);
    }
    AliasKeysAbsent(t, codec);
  }

  /** No exported parameter is named "issueralt" or "labelalt". */
  lemma AliasKeysAbsent(t: TokenState, codec: Base32Codec)
    ensures QueryParameter(ExportQuery(t, codec), "issueralt").None?
    ensures QueryParameter(ExportQuery(t, codec), "labelalt").None?
  {
    var c := CommonQuery(t, codec);
    CommonKeysNotAliases(t, codec);
    if t.kind == HOTP {
      HotpQuery(t, codec);
      var q := c + [("counter", IntToString(Long(t.counter + 1)))];
      assert |"counter"| != |"issueralt"| && |"counter"| != |"labelalt"|;
      assert forall j :: 0 <= j < |q| ==> q[j].0 != "issueralt" && q[j].0 != "labelalt";
    }
  }

  lemma CommonKeysNotAliases(t: TokenState, codec: Base32Codec)
    ensures forall j :: 0 <= j < |CommonQuery(t, codec)| ==>
              CommonQuery(t, codec)[j].0 != "issueralt" && CommonQuery(t, codec)[j].0 != "labelalt"
  {
    assert |"secret"| == |"issuer"| == |"digits"| == |"period"| == 6;
    assert |"issueralt"| == 9 && |"labelalt"| == 8 && "algorithm"[0] != "issueralt"[0];
  }

  lemma CommonReadsNames(t: TokenState, codec: Base32Codec)
    ensures var q := CommonQuery(t, codec);
            && QueryParameter(q, "secret") == Some(codec.encode(t.secret))
            && QueryParameter(q, "issuer") == Some(ExportedIssuer(t))
            && QueryParameter(q, "algorithm") == Some(t.algo)
  {
    var q := CommonQuery(t, codec);
    QueryParameterAt(q, 0, "secret");
    assert "secret"[0] != "issuer"[0];
    QueryParameterAt(q, 1, "issuer");
    assert "secret"[0] != "algorithm"[0] && "issuer"[0] != "algorithm"[0];
    QueryParameterAt(q, 2, "algorithm");
  }

  lemma CommonReadsNumbers(t: TokenState, codec: Base32Codec)
    ensures var q := CommonQuery(t, codec);
            && QueryParameter(q, "digits") == Some(IntToString(t.digits))
            && QueryParameter(q, "period") == Some(IntToString(t.period))
  {
    CommonReadsDigits(t, codec);
    CommonReadsPeriod(t, codec);
  }

  lemma CommonReadsDigits(t: TokenState, codec: Base32Codec)
    ensures QueryParameter(CommonQuery(t, codec), "digits") == Some(IntToString(t.digits))
  {
    assert "secret"[0] != "digits"[0] && "issuer"[0] != "digits"[0] && "algorithm"[0] != "digits"[0];
    QueryParameterAt(CommonQuery(t, codec), 3, "digits");
  }

  lemma CommonReadsPeriod(t: TokenState, codec: Base32Codec)
    ensures QueryParameter(CommonQuery(t, codec), "period") == Some(IntToString(t.period))
  {
    assert "secret"[0] != "period"[0] && "issuer"[0] != "period"[0] && "algorithm"[0] != "period"[0];
    assert "digits"[0] != "period"[0];
    QueryParameterAt(CommonQuery(t, codec), 4, "period");
  }

  /** The counter an HOTP export appends does not hide a shared parameter. */
  lemma ExportKeepsCommon(t: TokenState, codec: Base32Codec, key: string)
    requires QueryParameter(CommonQuery(t, codec), key).Some?
    ensures QueryParameter(ExportQuery(t, codec), key) == QueryParameter(CommonQuery(t, codec), key)
  {
    if t.kind == HOTP {
      HotpQuery(t, codec);
      PrefixKeeps(CommonQuery(t, codec), [("counter", IntToString(Long(t.counter + 1)))], key);
    }
  }

  /** Pairs appended after a key's first pair do not change what it reads as. */
  lemma {:induction false} PrefixKeeps(q: seq<(string, string)>, tail: seq<(string, string)>, key: string)
    requires QueryParameter(q, key).Some?
    ensures QueryParameter(q + tail, key) == QueryParameter(q, key)
  {
    if q[0].0 != key {
      assert (q + tail)[1..] == q[1..] + tail;
      PrefixKeeps(q[1..], tail, key);
    }
  }

  /** The HOTP export: the shared parameters, then the counter. */
  lemma HotpQuery(t: TokenState, codec: Base32Codec)
    requires t.kind == HOTP
    ensures ExportQuery(t, codec) == CommonQuery(t, codec) + [("counter", IntToString(Long(t.counter + 1)))]
  {
  }

  /** None of the parameters both token types share is named "counter". */
  lemma CounterKeyIsLast(t: TokenState, codec: Base32Codec)
    ensures forall j :: 0 <= j < |CommonQuery(t, codec)| ==> CommonQuery(t, codec)[j].0 != "counter"
  {
    assert "secret"[0] != "counter"[0] && "issuer"[0] != "counter"[0] && "digits"[0] != "counter"[0];
    assert "period"[0] != "counter"[0];
  }

  /** A key that only the last pair carries reads as that pair's value. */
  lemma LastPairReads(common: seq<(string, string)>, key: string, v: string)
    requires forall j :: 0 <= j < |common| ==> common[j].0 != key
    ensures QueryParameter(common + [(key, v)], key) == Some(v)
  {
    var q := common + [(key, v)];
    assert forall j :: 0 <= j < |common| ==> q[j] == common[j];
    QueryParameterAt(q, |common|, key);
  }

  /**
   * Re-importing a URI that carries the export query: every field but the
   * path's two parts is that of Exported(t); the parts are whatever the path
   * reads back as.
   */
  lemma ReimportExportQuery(t: TokenState, mac: Mac, codec: Base32Codec, u: Uri)
    requires Wellformed(t) && mac.supported("Hmac" + t.algo)
    requires codec.decode(codec.encode(t.secret)) == Some(t.secret)
    requires u.scheme == Some("otpauth") && u.authority == Some(if t.kind == HOTP then "hotp" else "totp")
    requires u.query == ExportQuery(t, codec) && u.path.Some? && RemoveFirst(u.path.value, '/') != ""
    requires DigitsAllowed(SplitAtColon(RemoveFirst(u.path.value, '/')).0, t.digits)
    ensures ParseUri(u, false, mac, codec) == Ok(Reimported(t, u))
  {
    ExportParametersParse(t, codec, u);
    ExportAccepted(t, mac, codec, u);
    ParseUriAcceptsExactly(u, mac, codec, Reimported(t, u));
  }

  /** The re-import of an export: Exported(t) with the path's two parts as the URI reads them. */
  function Reimported(t: TokenState, u: Uri): TokenState
    requires u.path.Some?
  {
    var parts := SplitAtColon(RemoveFirst(u.path.value, '/'));
    Exported(t).(issuerExt := parts.0, tokenLabel := parts.1)
  }

  /** A URI whose parameters read back as t's fields is accepted with every field of Exported(t) but the path's parts. */
  lemma ExportAccepted(t: TokenState, mac: Mac, codec: Base32Codec, u: Uri)
    requires Wellformed(t) && mac.supported("Hmac" + t.algo)
    requires codec.decode(codec.encode(t.secret)) == Some(t.secret)
    requires u.scheme == Some("otpauth") && u.authority == Some(if t.kind == HOTP then "hotp" else "totp")
    requires u.path.Some? && RemoveFirst(u.path.value, '/') != ""
    requires DigitsAllowed(SplitAtColon(RemoveFirst(u.path.value, '/')).0, t.digits)
    requires AsciiUpper(ParamOr(u, "algorithm", "sha1")) == t.algo
    requires ParseInteger(ParamOr(u, "digits", "6"), IntMin, IntMax) == Some(t.digits)
    requires ParseInteger(ParamOr(u, "period", "30"), IntMin, IntMax) == Some(t.period)
    requires t.kind == HOTP ==> ParseInteger(ParamOr(u, "counter", "0"), LongMin, LongMax) == Some(Long(t.counter + 1))
    requires QueryParameter(u.query, "secret") == Some(codec.encode(t.secret))
    requires QueryParameter(u.query, "issuer") == Some(ExportedIssuer(t))
    ensures Accepts(u, mac, codec, Reimported(t, u))
  {
    ExportAcceptsPath(t, u);
    ExportAcceptsParameters(t, mac, u);
    ExportAcceptsSecret(t, codec, u);
  }

  /** The scheme, authority and path of such a URI are accepted as they read. */
  lemma ExportAcceptsPath(t: TokenState, u: Uri)
    requires u.scheme == Some("otpauth") && u.authority == Some(if t.kind == HOTP then "hotp" else "totp")
    requires u.path.Some? && RemoveFirst(u.path.value, '/') != ""
    ensures AcceptsPath(u, Reimported(t, u))
  {
  }

  /** Its algorithm, digits, period and counter read as the exported token's fields. */
  lemma ExportAcceptsParameters(t: TokenState, mac: Mac, u: Uri)
    requires Wellformed(t) && mac.supported("Hmac" + t.algo)
    requires u.path.Some? && DigitsAllowed(SplitAtColon(RemoveFirst(u.path.value, '/')).0, t.digits)
    requires AsciiUpper(ParamOr(u, "algorithm", "sha1")) == t.algo
    requires ParseInteger(ParamOr(u, "digits", "6"), IntMin, IntMax) == Some(t.digits)
    requires ParseInteger(ParamOr(u, "period", "30"), IntMin, IntMax) == Some(t.period)
    requires t.kind == HOTP ==> ParseInteger(ParamOr(u, "counter", "0"), LongMin, LongMax) == Some(Long(t.counter + 1))
    ensures AcceptsParameters(u, mac, Reimported(t, u))
  {
    ReimportedParameters(t, u);
  }

  /** The fields the parameters determine, in the re-imported token. */
  lemma ReimportedParameters(t: TokenState, u: Uri)
    requires u.path.Some? && (t.kind == TOTP ==> t.counter == 0)
    ensures var e := Reimported(t, u);
            && e.algo == t.algo && e.digits == t.digits && e.period == t.period && e.kind == t.kind
            && e.counter == (if t.kind == HOTP then Long(t.counter + 1) else 0)
            && e.issuerExt == SplitAtColon(RemoveFirst(u.path.value, '/')).0
  {
  }

  /** Its secret decodes to the token's secret and its issuer is the exported issuer. */
  lemma ExportAcceptsSecret(t: TokenState, codec: Base32Codec, u: Uri)
    requires codec.decode(codec.encode(t.secret)) == Some(t.secret)
    requires u.path.Some?
    requires QueryParameter(u.query, "secret") == Some(codec.encode(t.secret))
    requires QueryParameter(u.query, "issuer") == Some(ExportedIssuer(t))
    ensures AcceptsSecret(u, codec, Reimported(t, u))
  {
  }

  /** Each parameter of the export parses back to the field it was written from. */
  lemma ExportParametersParse(t: TokenState, codec: Base32Codec, u: Uri)
    requires Wellformed(t) && u.query == ExportQuery(t, codec)
    ensures AsciiUpper(ParamOr(u, "algorithm", "sha1")) == t.algo
    ensures ParseInteger(ParamOr(u, "digits", "6"), IntMin, IntMax) == Some(t.digits)
    ensures ParseInteger(ParamOr(u, "period", "30"), IntMin, IntMax) == Some(t.period)
    ensures t.kind == HOTP ==> ParseInteger(ParamOr(u, "counter", "0"), LongMin, LongMax) == Some(Long(t.counter + 1))
    ensures QueryParameter(u.query, "secret") == Some(codec.encode(t.secret))
    ensures QueryParameter(u.query, "issuer") == Some(ExportedIssuer(t))
  {
    ExportQueryReads(t, codec);
    ParseIntegerOfToString(t.digits, IntMin, IntMax);
    ParseIntegerOfToString(t.period, IntMin, IntMax);
    if t.kind == HOTP {
      ParseIntegerOfToString(Long(t.counter + 1), LongMin, LongMax);
    }
  }

  /** The paths the export keeps: non-empty, not starting with '/', and with a ':' only after a non-empty issuer. */
  predicate PathSurvivesExport(t: TokenState)
  {
    var path := ExportPath(t);
    path != "" && path[0] != '/' && (t.issuerExt == "" ==> ':' !in t.tokenLabel)
  }

  /** Export then re-import gives back every base field (aliases dropped, HOTP counter one ahead). */
  lemma RoundTrip(t: TokenState, mac: Mac, codec: Base32Codec)
    requires Wellformed(t) && mac.supported("Hmac" + t.algo)
    requires codec.decode(codec.encode(t.secret)) == Some(t.secret)
    requires PathSurvivesExport(t)
    ensures ParseUri(ToUri(t, codec), false, mac, codec) == Ok(Exported(t))
  {
    var u := ToUri(t, codec);
    var path := ExportPath(t);
    assert u.path.value == "/" + path;
    assert RemoveFirst(u.path.value, '/') == path;
    var parts := SplitAtColon(path);
    if t.issuerExt != "" {
      assert path[|t.issuerExt|] == ':';
    }
    SplitsPathUnique(path, parts.0, parts.1, t.issuerExt, t.tokenLabel);
    ReimportExportQuery(t, mac, codec, u);
  }

  /** A path that loses its ':' or a '/' in the export does not come back: toUri as written keeps exactly those paths. */
  lemma RoundTripOnlyIfSurvives(t: TokenState, mac: Mac, codec: Base32Codec)
    requires Wellformed(t) && !PathSurvivesExport(t)
    ensures ParseUri(ToUri(t, codec), false, mac, codec) != Ok(Exported(t))
  {
    var path := ExportPath(t);
    var p := RemoveFirst(ToUri(t, codec).path.value, '/');
    ExportedPathLost(t, path, p);
  }

  /** How the export path of a token it does not keep reads back: empty, or not split as the token's issuer and label. */
  lemma ExportedPathLost(t: TokenState, path: string, p: string)
    requires Wellformed(t) && !PathSurvivesExport(t) && path == ExportPath(t)
    requires path == "" ==> p == ""
    requires path != "" ==> p == if path[0] == '/' then path[1..] else path
    ensures p == "" || !SplitsPath(p, t.issuerExt, t.tokenLabel)
  {
    if path != "" && path[0] == '/' {
      if t.issuerExt != "" {
        assert path[|t.issuerExt|] == ':';
      }
      assert |p| == |path| - 1;
      SplitsPathLength(p, t.issuerExt, t.tokenLabel);
    } else if path != "" {
      ColonLabelNotSplit(t.tokenLabel);
    }
  }

  /** A split path is as long as its parts and the ':' between them, or is all label. */
  lemma SplitsPathLength(p: string, e: string, l: string)
    ensures SplitsPath(p, e, l) ==> |p| == |e| + 1 + |l| || (e == "" && p == l)
  {
  }

  /** A label holding a ':' is not a path of its own: the first ':' would split it. */
  lemma ColonLabelNotSplit(l: string)
    requires ':' in l
    ensures !SplitsPath(l, "", l)
  {
    assert |l| != |"" + ":" + l|;
  }

  // ---------------------------------------------------------------------
  // Where the export loses the path

  /** A token read from a URI whose stripped path splits as issuer `e` and label `l` holds those parts. */
  lemma ReadsPathAs(uri: Uri, internal: bool, mac: Mac, codec: Base32Codec, t: TokenState, e: string, l: string)
    requires ParseUri(uri, internal, mac, codec) == Ok(t)
    requires uri.path.Some? && SplitsPath(RemoveFirst(uri.path.value, '/'), e, l)
    ensures t.issuerExt == e && t.tokenLabel == l
    ensures Wellformed(t) && mac.supported("Hmac" + t.algo)
  {
    SplitsPathUnique(RemoveFirst(uri.path.value, '/'), t.issuerExt, t.tokenLabel, e, l);
  }

  /** Re-importing the export, when its path comes back as `path`, split as issuer `e` and label `l`. */
  lemma ReimportAs(t: TokenState, mac: Mac, codec: Base32Codec, path: string, e: string, l: string)
    requires Wellformed(t) && mac.supported("Hmac" + t.algo)
    requires codec.decode(codec.encode(t.secret)) == Some(t.secret)
    requires RemoveFirst(ToUri(t, codec).path.value, '/') == path && path != ""
    requires SplitsPath(path, e, l) && DigitsAllowed(e, t.digits)
    ensures ParseUri(ToUri(t, codec), false, mac, codec) == Ok(Exported(t).(issuerExt := e, tokenLabel := l))
  {
    var parts := SplitAtColon(path);
    SplitsPathUnique(path, parts.0, parts.1, e, l);
    ReimportExportQuery(t, mac, codec, ToUri(t, codec));
  }

  /** As written: the path "/:a:b" gives label "a:b", exported as "a:b", which comes back as issuer "a", label "b". */
  lemma ExportSplitsColonLabel(uri: Uri, internal: bool, mac: Mac, codec: Base32Codec, t: TokenState)
    requires ParseUri(uri, internal, mac, codec) == Ok(t) && uri.path == Some("/:a:b")
    requires codec.decode(codec.encode(t.secret)) == Some(t.secret)
    ensures t.issuerExt == "" && t.tokenLabel == "a:b"
    ensures ParseUri(ToUri(t, codec), false, mac, codec) == Ok(Exported(t).(issuerExt := "a", tokenLabel := "b"))
  {
    ColonLabelPath();
    ReadsPathAs(uri, internal, mac, codec, t, "", "a:b");
    assert ExportPath(t) == "a:b" && "a:b"[0] != '/';
    ColonLabelSplits();
    ReimportAs(t, mac, codec, "a:b", "a", "b");
  }

  /** How the path "/:a:b" is read. */
  lemma ColonLabelPath()
    ensures RemoveFirst("/:a:b", '/') == ":a:b" && SplitsPath(":a:b", "", "a:b")
  {
    assert "/:a:b"[0] == '/' && "/:a:b"[1..] == ":a:b";
    assert ":a:b" == "" + ":" + "a:b";
    ColonPathSplit("", "a:b");
  }

  /** How the exported path "a:b" splits. */
  lemma ColonLabelSplits()
    ensures SplitsPath("a:b", "a", "b")
  {
    assert "a:b" == "a" + ":" + "b";
    assert "a"[0] != ':';
    ColonPathSplit("a", "b");
  }

  /** A path made of an issuer without ':', a ':' and a label splits into that issuer and label. */
  lemma ColonPathSplit(e: string, l: string)
    requires ':' !in e
    ensures SplitsPath(e + ":" + l, e, l)
  {
    assert (e + ":" + l)[|e|] == ':';
  }

  /** A path without ':' is all label. */
  lemma SplitsWithoutColon(path: string)
    requires ':' !in path
    ensures SplitsPath(path, "", path)
  {
  }

  /** As written: the path "/:" gives an empty issuer and label, exported with an empty path, which is refused. */
  lemma ExportOfEmptyLabelRefused(uri: Uri, internal: bool, mac: Mac, codec: Base32Codec, t: TokenState)
    requires ParseUri(uri, internal, mac, codec) == Ok(t) && uri.path == Some("/:")
    ensures t.issuerExt == "" && t.tokenLabel == ""
    ensures ParseUri(ToUri(t, codec), false, mac, codec) == TokenUriInvalid
  {
    assert "/:"[0] == '/' && "/:"[1..] == ":";
    assert ":" == "" + ":" + "";
    ColonPathSplit("", "");
    ReadsPathAs(uri, internal, mac, codec, t, "", "");
    assert ToUri(t, codec).path == Some("");
  }

  /** As written: the path "//x" gives label "/x", exported as the already absolute "/x", which comes back as "x". */
  lemma ExportDropsLeadingSlash(uri: Uri, internal: bool, mac: Mac, codec: Base32Codec, t: TokenState)
    requires ParseUri(uri, internal, mac, codec) == Ok(t) && uri.path == Some("//x")
    requires codec.decode(codec.encode(t.secret)) == Some(t.secret)
    ensures t.issuerExt == "" && t.tokenLabel == "/x"
    ensures ParseUri(ToUri(t, codec), false, mac, codec) == Ok(Exported(t).(tokenLabel := "x"))
  {
    SlashLabelPaths();
    ReadsPathAs(uri, internal, mac, codec, t, "", "/x");
    assert ExportPath(t) == "/x" && "/x"[0] == '/' && "/x"[1..] == "x";
    ReimportAs(t, mac, codec, "x", "", "x");
  }

  /** How the paths of ExportDropsLeadingSlash split. */
  lemma SlashLabelPaths()
    ensures RemoveFirst("//x", '/') == "/x" && SplitsPath("/x", "", "/x") && SplitsPath("x", "", "x")
  {
    assert "//x"[0] == '/' && "//x"[1..] == "/x";
    assert "/x"[0] != ':' && "/x"[1] != ':';
    SplitsWithoutColon("/x");
    assert "x"[0] != ':';
    SplitsWithoutColon("x");
  }

  // ---------------------------------------------------------------------
  // An export that keeps every path

  /** The path written with the ':' whenever dropping it would change how the path splits. */
  function ExportPathCorrected(t: TokenState): (path: string)
    requires ':' !in t.issuerExt
    ensures path != "" && SplitsPath(path, t.issuerExt, t.tokenLabel)
  {
    if t.issuerExt != "" || ':' in t.tokenLabel || t.tokenLabel == "" then
      var path := t.issuerExt + ":" + t.tokenLabel;
      assert path[|t.issuerExt|] == ':';
      path
    else t.tokenLabel
  }

  /** toUri with the corrected path, given to the builder already absolute so that no '/' of the path is lost. */
  function ToUriCorrected(t: TokenState, codec: Base32Codec): (u: Uri)
    requires ':' !in t.issuerExt
    ensures u.scheme == Some("otpauth") && u.authority == Some(if t.kind == HOTP then "hotp" else "totp")
    ensures u.query == ExportQuery(t, codec)
    ensures u.path.Some? && RemoveFirst(u.path.value, '/') == ExportPathCorrected(t)
  {
    var u := Build("otpauth", if t.kind == HOTP then "hotp" else "totp", "/" + ExportPathCorrected(t),
                   ExportQuery(t, codec));
    assert u.path.value[1..] == ExportPathCorrected(t);
    u
  }

  /** With the corrected path, export then re-import gives back every base field of every token. */
  lemma RoundTripCorrected(t: TokenState, mac: Mac, codec: Base32Codec)
    requires Wellformed(t) && mac.supported("Hmac" + t.algo)
    requires codec.decode(codec.encode(t.secret)) == Some(t.secret)
    ensures ParseUri(ToUriCorrected(t, codec), false, mac, codec) == Ok(Exported(t))
  {
    var u := ToUriCorrected(t, codec);
    var path := ExportPathCorrected(t);
    var parts := SplitAtColon(path);
    SplitsPathUnique(path, parts.0, parts.1, t.issuerExt, t.tokenLabel);
    ReimportExportQuery(t, mac, codec, u);
  }
}

=== FILE: TokenProperties.dfy ===
/**
 * What a Token promises, proved of the functions in TokenSpec: the URI
 * checks, defaults and coercions of construction, what identity is made of,
 * the shape of every code, and the counter and time windows of code
 * generation.
 */
module TokenProperties {
  import opened Options
  import opened JavaLang
  import opened Collaborators
  import opened Hotp
  import opened TokenSpec

  // ---------------------------------------------------------------------
  // Construction

  /** Each check of the constructor on its own is enough to refuse the URI. */
  lemma ParseRejects(uri: Uri, internal: bool, mac: Mac, codec: Base32Codec)
    ensures uri.scheme != Some("otpauth") ==> ParseUri(uri, internal, mac, codec) == TokenUriInvalid
    ensures uri.authority != Some("totp") && uri.authority != Some("hotp") ==>
              ParseUri(uri, internal, mac, codec) == TokenUriInvalid
    ensures uri.path.None? || RemoveFirst(uri.path.value, '/') == "" ==>
              ParseUri(uri, internal, mac, codec) == TokenUriInvalid
    ensures !mac.supported("Hmac" + AsciiUpper(ParamOr(uri, "algorithm", "sha1"))) ==>
              ParseUri(uri, internal, mac, codec) == TokenUriInvalid
    ensures ParseInteger(ParamOr(uri, "digits", "6"), IntMin, IntMax).None? ==>
              ParseUri(uri, internal, mac, codec) == TokenUriInvalid
    ensures ParseInteger(ParamOr(uri, "period", "30"), IntMin, IntMax).None? ==>
              ParseUri(uri, internal, mac, codec) == TokenUriInvalid
    ensures uri.authority == Some("hotp") && ParseInteger(ParamOr(uri, "counter", "0"), LongMin, LongMax).None? ==>
              ParseUri(uri, internal, mac, codec) == TokenUriInvalid
    ensures QueryParameter(uri.query, "secret").None? ==> ParseUri(uri, internal, mac, codec) == TokenUriInvalid
    ensures QueryParameter(uri.query, "secret").Some? && codec.decode(QueryParameter(uri.query, "secret").value).None? ==>
              ParseUri(uri, internal, mac, codec) == TokenUriInvalid
    ensures uri.path.Some? && SplitAtColon(RemoveFirst(uri.path.value, '/')).0 != "Steam" &&
            ParseInteger(ParamOr(uri, "digits", "6"), IntMin, IntMax).Some? &&
            ParseInteger(ParamOr(uri, "digits", "6"), IntMin, IntMax).value !in {6, 8} ==>
              ParseUri(uri, internal, mac, codec) == TokenUriInvalid
  {
  }

  /** The path's parts are unique: only one issuer/label pair splits a given path. */
  lemma {:induction false} SplitsPathUnique(path: string, e1: string, l1: string, e2: string, l2: string)
    requires SplitsPath(path, e1, l1) && SplitsPath(path, e2, l2)
    ensures e1 == e2 && l1 == l2
  {
    if ':' in path {
      FirstColonAt(path, e1, l1);
      FirstColonAt(path, e2, l2);
      assert e1 == path[..|e1|] && e2 == path[..|e2|];
      assert l1 == path[|e1| + 1..] && l2 == path[|e2| + 1..];
    }
  }

  /** In issuer ":" label with no ':' in the issuer, the first ':' is right after the issuer. */
  lemma FirstColonAt(path: string, e: string, l: string)
    requires path == e + ":" + l && ':' !in e
    ensures FindFirst(path, ':') == |e|
  {
    var k := FindFirst(path, ':');
    assert path[|e|] == ':';
    assert forall j :: 0 <= j < |e| ==> path[j] == e[j];
    assert forall j :: 0 <= j < k ==> path[..k][j] == path[j];
  }

  /** The default parameter values read as the constructor expects. */
  lemma DefaultLiterals()
    ensures AsciiUpper("sha1") == "SHA1"
    ensures ParseInteger("6", IntMin, IntMax) == Some(6)
    ensures ParseInteger("30", IntMin, IntMax) == Some(30)
    ensures ParseInteger("0", LongMin, LongMax) == Some(0)
  {
    assert "6"[..0] == [];
    assert "30"[..1] == "3";
    assert "3"[..0] == [];
    assert "0"[..0] == [];
  }

  /** Defaults and coercions: algorithm SHA1, 6 digits, period 30 (also for a period <= 0), HOTP counter 0. */
  lemma ParseDefaults(uri: Uri, internal: bool, mac: Mac, codec: Base32Codec, t: TokenState)
    requires ParseUri(uri, internal, mac, codec) == Ok(t)
    ensures QueryParameter(uri.query, "algorithm").None? ==> t.algo == "SHA1"
    ensures QueryParameter(uri.query, "digits").None? ==> t.digits == 6
    ensures QueryParameter(uri.query, "period").None? ==> t.period == 30
    ensures var p := ParseInteger(ParamOr(uri, "period", "30"), IntMin, IntMax);
            p.Some? && t.period == (if p.value > 0 then p.value else 30)
    ensures t.kind == HOTP && QueryParameter(uri.query, "counter").None? ==> t.counter == 0
    ensures t.kind == TOTP ==> t.counter == 0
    ensures internal ==> && t.issuerAlt == NormalizedAlias(QueryParameter(uri.query, "issueralt"), t.issuerExt)
                         && t.labelAlt == NormalizedAlias(QueryParameter(uri.query, "labelalt"), t.tokenLabel)
  {
    var path := RemoveFirst(uri.path.value, '/');
    var parts := SplitAtColon(path);
    SplitsPathUnique(path, parts.0, parts.1, t.issuerExt, t.tokenLabel);
    DefaultLiterals();
  }

  /**
   * When an external URI yields exactly `t`: every check passes, and each
   * field is the value read from the URI, its default, or its coercion.
   */
  predicate Accepts(uri: Uri, mac: Mac, codec: Base32Codec, t: TokenState)
  {
    AcceptsPath(uri, t) && AcceptsParameters(uri, mac, t) && AcceptsSecret(uri, codec, t)
  }

  /** The scheme and authority name the token type; the stripped path splits into t's issuer and label. */
  predicate AcceptsPath(uri: Uri, t: TokenState)
  {
    && uri.scheme == Some("otpauth") && uri.authority == Some(if t.kind == HOTP then "hotp" else "totp")
    && uri.path.Some? && RemoveFirst(uri.path.value, '/') != ""
    && SplitAtColon(RemoveFirst(uri.path.value, '/')) == (t.issuerExt, t.tokenLabel)
  }

  /** The algorithm, digits, period and counter parameters read as t's fields, or their defaults. */
  predicate AcceptsParameters(uri: Uri, mac: Mac, t: TokenState)
  {
    && AsciiUpper(ParamOr(uri, "algorithm", "sha1")) == t.algo && mac.supported("Hmac" + t.algo)
    && ParseInteger(ParamOr(uri, "digits", "6"), IntMin, IntMax) == Some(t.digits)
    && DigitsAllowed(t.issuerExt, t.digits)
    && ParseInteger(ParamOr(uri, "period", "30"), IntMin, IntMax).Some?
    && t.period == (var p := ParseInteger(ParamOr(uri, "period", "30"), IntMin, IntMax).value;
                    if p > 0 then p else 30)
    && (t.kind == HOTP ==> ParseInteger(ParamOr(uri, "counter", "0"), LongMin, LongMax) == Some(t.counter))
    && (t.kind == TOTP ==> t.counter == 0)
  }

  /** The secret decodes to t's secret; the issuer parameter is t's internal issuer; no aliases are set. */
  predicate AcceptsSecret(uri: Uri, codec: Base32Codec, t: TokenState)
  {
    && QueryParameter(uri.query, "secret").Some?
    && codec.decode(QueryParameter(uri.query, "secret").value) == Some(t.secret)
    && t.issuerInt == QueryParameter(uri.query, "issuer")
    && t.issuerAlt.None? && t.labelAlt.None?
  }

  /** The tokens an external URI yields are exactly those it accepts. */
  lemma ParseUriAcceptsExactly(uri: Uri, mac: Mac, codec: Base32Codec, t: TokenState)
    ensures ParseUri(uri, false, mac, codec) == Ok(t) <==> Accepts(uri, mac, codec, t)
  {
    if UriKind(uri).Some? && RemoveFirst(uri.path.value, '/') != "" {
      var parts := SplitAtColon(RemoveFirst(uri.path.value, '/'));
      ParametersAcceptExactly(uri, mac, codec, UriKind(uri).value, parts.0, parts.1, t);
    }
  }

  /** Once the path is split, the parameters yield exactly the tokens whose fields they read as. */
  lemma ParametersAcceptExactly(uri: Uri, mac: Mac, codec: Base32Codec,
                                kind: TokenType, issuerExt: string, lbl: string, t: TokenState)
    requires ':' !in issuerExt
    ensures ParseParameters(uri, mac, codec, kind, issuerExt, lbl) == Ok(t) <==>
            && t.kind == kind && t.issuerExt == issuerExt && t.tokenLabel == lbl
            && AcceptsParameters(uri, mac, t) && AcceptsSecret(uri, codec, t)
  {
  }

  /** Without an issuer parameter, the identity is the path as read: the stripped path, less a leading ':'. */
  lemma IdOfParsedUri(uri: Uri, internal: bool, mac: Mac, codec: Base32Codec, t: TokenState)
    requires ParseUri(uri, internal, mac, codec) == Ok(t)
    requires QueryParameter(uri.query, "issuer").None? || QueryParameter(uri.query, "issuer") == Some("")
    ensures var path := RemoveFirst(uri.path.value, '/');
            Id(t) == if path[0] == ':' then path[1..] else path
  {
    IdOfSplitPath(RemoveFirst(uri.path.value, '/'), t);
  }

  /** The identity of a token whose issuer and label are the split of `path`, when no internal issuer is set. */
  lemma IdOfSplitPath(path: string, t: TokenState)
    requires path != "" && SplitsPath(path, t.issuerExt, t.tokenLabel)
    requires t.issuerInt.None? || t.issuerInt == Some("")
    ensures Id(t) == if path[0] == ':' then path[1..] else path
  {
    if ':' in path && t.issuerExt != "" {
      assert path[0] == t.issuerExt[0];
      assert t.issuerExt[0] in t.issuerExt;
    }
    if ':' !in path {
      assert path[0] in path;
    }
  }

  // ---------------------------------------------------------------------
  // Codes

  /** Every code generated is empty (the keyed hash failed) or made of `digits` symbols of the issuer's alphabet. */
  lemma GeneratedCodeAlphabet(t: TokenState, mac: Mac, cur: int)
    requires Wellformed(t)
    ensures var code := Generate(t, mac, cur).0.code;
            && (t.issuerExt != "Steam" ==> code == "" || (|code| == t.digits && IsDecimal(code)))
            && (t.issuerExt == "Steam" ==>
                  (code == "" || |code| == t.digits) && (forall i :: 0 <= i < |code| ==> code[i] in SteamChars))
  {
    var counter := if t.kind == HOTP then t.counter else TimeStep(t, cur);
    match mac.hmac("Hmac" + t.algo, t.secret, EncodeCounter(counter))
    case None =>
    case Some(d) =>
      FormatCodeShape(t.issuerExt, t.digits, Truncate(d));
  }

  /**
   * Two HOTP generations in a row: the first codes the stored counter, the
   * second the next value, the token ends two ahead, the two hashed messages
   * differ, and each code is shown for one period from the moment asked.
   */
  lemma HotpSuccessiveCodes(t: TokenState, mac: Mac, cur1: int, cur2: int)
    requires Wellformed(t) && t.kind == HOTP && t.counter + 2 <= LongMax
    ensures var (first, t1) := Generate(t, mac, cur1);
            var (second, t2) := Generate(t1, mac, cur2);
            && first.code == Otp(t, mac, t.counter) && second.code == Otp(t, mac, t.counter + 1)
            && t1 == t.(counter := t.counter + 1) && t2 == t.(counter := t.counter + 2)
            && EncodeCounter(t.counter) != EncodeCounter(t1.counter)
            && first.start == cur1 && first.until == cur1 + t.period * 1000 && first.next.None?
            && second.start == cur2 && second.until == cur2 + t.period * 1000
  {
    EncodeCounterInjective(t.counter, t.counter + 1);
  }

  /** The TOTP step is the number of whole windows of period * 1000 ms before `cur`. */
  lemma TimeStepBounds(t: TokenState, cur: int)
    requires t.period > 0 && cur >= 0
    ensures var w := t.period * 1000;
            TimeStep(t, cur) * w <= cur < TimeStep(t, cur) * w + w
  {
    DivDiv(cur, 1000, t.period);
    DivBounds(cur, 1000 * t.period);
    assert t.period * 1000 == 1000 * t.period;
  }

  /**
   * Java's division truncates toward zero, so the step is 0 throughout the
   * period before the epoch as well as the one after it: step -1 never occurs.
   */
  lemma TimeStepNearEpoch(t: TokenState, cur: int)
    requires t.period > 0 && -(1000 * t.period) < cur < 1000 * t.period
    ensures TimeStep(t, cur) == 0
  {
    JavaDivBelow(cur, 1000, t.period);
    JavaDivBelow(JavaDiv(cur, 1000), t.period, 1);
  }

  /** Any time inside window k has step k. */
  lemma TimeStepOfWindow(t: TokenState, cur: int, k: int)
    requires t.period > 0 && cur >= 0
    requires k * (t.period * 1000) <= cur < k * (t.period * 1000) + t.period * 1000
    ensures TimeStep(t, cur) == k
  {
    DivDiv(cur, 1000, t.period);
    assert t.period * 1000 == 1000 * t.period;
    DivModUnique(cur, 1000 * t.period, k, cur - k * (t.period * 1000));
  }

  /**
   * A TOTP generation at a time at or after the epoch leaves the token as it
   * was and returns the code for the window containing `cur`, windows being
   * period * 1000 ms long and aligned at 0, followed by the code for the
   * adjacent window.
   */
  lemma TotpWindow(t: TokenState, mac: Mac, cur: int)
    requires Wellformed(t) && t.kind == TOTP && cur >= 0
    ensures var (c, after) := Generate(t, mac, cur);
            var w := t.period * 1000;
            && after == t
            && c.start <= cur < c.until && c.until - c.start == w && c.start % w == 0
            && c.code == Otp(t, mac, c.start / w)
            && c.next.Some? && c.next.value.start == c.until && c.next.value.until - c.next.value.start == w
            && c.next.value.code == Otp(t, mac, c.start / w + 1) && c.next.value.next.None?
  {
    var step := TimeStep(t, cur);
    var w := t.period * 1000;
    TimeStepBounds(t, cur);
    WindowArithmetic(step, t.period);
    DivModUnique(step * w, w, step, 0);
  }

  /** Every time in the window of a TOTP code gets that same code. */
  lemma TotpSameWindowSameCodes(t: TokenState, mac: Mac, cur: int, other: int)
    requires Wellformed(t) && t.kind == TOTP && cur >= 0
    requires Generate(t, mac, cur).0.start <= other < Generate(t, mac, cur).0.until
    ensures Generate(t, mac, other) == Generate(t, mac, cur)
  {
    var step := TimeStep(t, cur);
    var c := Generate(t, mac, cur).0;
    assert c.start == step * t.period * 1000 && c.until == (step + 1) * t.period * 1000;
    WindowArithmetic(step, t.period);
    TimeStepOfWindow(t, other, step);
    TotpDependsOnStepOnly(t, mac, cur, other);
  }

  lemma WindowArithmetic(step: int, period: int)
    ensures step * period * 1000 == step * (period * 1000)
    ensures (step + 1) * period * 1000 == step * (period * 1000) + period * 1000
    ensures (step + 2) * period * 1000 == step * (period * 1000) + 2 * (period * 1000)
  {
  }

  /** A TOTP generation depends on the time only through its step. */
  lemma TotpDependsOnStepOnly(t: TokenState, mac: Mac, a: int, b: int)
    requires Wellformed(t) && t.kind == TOTP && TimeStep(t, a) == TimeStep(t, b)
    ensures Generate(t, mac, a) == Generate(t, mac, b)
  {
  }

  /** The look-ahead code is the code a generation one period later returns, with the same window. */
  lemma TotpNextIsLater(t: TokenState, mac: Mac, cur: int)
    requires Wellformed(t) && t.kind == TOTP && cur >= 0
    ensures var now := Generate(t, mac, cur).0;
            var later := Generate(t, mac, cur + t.period * 1000).0;
            now.next.Some? && later.code == now.next.value.code &&
            later.start == now.next.value.start && later.until == now.next.value.until
  {
    var step := TimeStep(t, cur);
    TimeStepNextPeriod(t, cur);
    assert TimeStep(t, cur + t.period * 1000) == step + 1;
    assert step + 1 + 1 == step + 2;
  }

  /** One period later the time step is one more. */
  lemma TimeStepNextPeriod(t: TokenState, cur: int)
    requires t.period > 0 && cur >= 0
    ensures TimeStep(t, cur + t.period * 1000) == TimeStep(t, cur) + 1
  {
    var step := TimeStep(t, cur);
    var w := t.period * 1000;
    TimeStepBounds(t, cur);
    assert (step + 1) * w == step * w + w;
    TimeStepOfWindow(t, cur + w, step + 1);
  }
}

=== FILE: TokenSpec.dfy ===
/**
 * Token's behaviour as functions of its field values: construction from an
 * otpauth:// URI, identity and display names, the one-time codes, code
 * generation and export back to a URI. The class in Token.dfy holds these
 * fields and is proved to behave as described here.
 */
module TokenSpec {
  import opened Options
  import opened JavaLang
  import opened Collaborators
  import opened Hotp

  datatype TokenType = HOTP | TOTP

  /** The fields of a Token. None stands for a null reference. */
  datatype TokenState = TokenState(
    issuerInt: Option<string>,  // the `issuer` query parameter
    issuerExt: string,          // the path before its first ':'
    tokenLabel: string,         // Token.label: the path after its first ':'
    secret: seq<byte>,
    digits: int,
    issuerAlt: Option<string>,  // user override of the issuer
    labelAlt: Option<string>,   // user override of the label
    kind: TokenType,
    algo: string,
    counter: int,               // a Java long
    period: int)

  /** Construction either yields a token or throws TokenUriInvalidException. */
  datatype Result<T> = Ok(value: T) | TokenUriInvalid

  /** TokenCode: a code, the interval [start, until) in milliseconds it is shown for, and the code after it. */
  datatype TokenCode = TokenCode(code: string, start: int, until: int, next: Option<TokenCode>)

  /** What holds of every constructed token and is kept by every operation. */
  predicate Wellformed(t: TokenState)
  {
    && ':' !in t.issuerExt
    && IntMin <= t.digits <= IntMax && DigitsAllowed(t.issuerExt, t.digits)
    && 0 < t.period <= IntMax
    && LongMin <= t.counter <= LongMax
    && (t.kind == TOTP ==> t.counter == 0)
    && AsciiUpper(t.algo) == t.algo
    && t.issuerAlt != Some(t.issuerExt)
    && t.labelAlt != Some(t.tokenLabel)
  }

  // ---------------------------------------------------------------------
  // Aliases: an optional override of a base value

  /** getIssuer / getLabel: the alias when there is one, otherwise the base value. */
  function Effective(alias: Option<string>, base: string): (v: string)
    ensures v == base || Some(v) == alias
    ensures alias != Some(base) ==> (v == base <==> alias.None?)
  {
    if alias.Some? then alias.value else base
  }

  /**
   * The alias setIssuer / setLabel store for a requested value: none when the
   * request is null or equals the base value, so an override is never redundant.
   */
  function NormalizedAlias(requested: Option<string>, base: string): (alias: Option<string>)
    ensures alias != Some(base)
    ensures Effective(alias, base) == (if requested.Some? then requested.value else base)
    ensures alias.Some? ==> alias == requested
  {
    if requested.None? || requested.value == base then None else requested
  }

  /** Setting an alias to what is already shown changes nothing; setting twice is setting once. */
  lemma NormalizedAliasStable(alias: Option<string>, base: string, requested: Option<string>)
    requires alias != Some(base)
    ensures NormalizedAlias(Some(Effective(alias, base)), base) == alias
    ensures var once := NormalizedAlias(requested, base);
            NormalizedAlias(Some(Effective(once, base)), base) == once
  {
    if alias.None? {
      assert Effective(alias, base) == base;
    }
    var once := NormalizedAlias(requested, base);
    if once.None? {
      assert Effective(once, base) == base;
    }
  }

  // ---------------------------------------------------------------------
  // Construction from a URI

  /** The value of a query parameter, or the given default when it is absent. */
  function ParamOr(uri: Uri, key: string, default: string): string
  {
    match QueryParameter(uri.query, key)
    case Some(v) => v
    case None => default
  }

  /** `path` split at its first ':' into an issuer without ':' and a label; no ':' means no issuer. */
  predicate SplitsPath(path: string, issuerExt: string, lbl: string)
  {
    && ':' !in issuerExt
    && (':' in path ==> path == issuerExt + ":" + lbl)
    && (':' !in path ==> issuerExt == "" && lbl == path)
  }

  /** The split the constructor computes from the first ':' of the path. */
  function SplitAtColon(path: string): (parts: (string, string))
    ensures SplitsPath(path, parts.0, parts.1)
  {
    var i := FindFirst(path, ':');
    if i == |path| then
      assert path[..i] == path;
      ("", path)
    else
      assert path == path[..i] + ":" + path[i + 1..];
      (path[..i], path[i + 1..])
  }

  /**
   * validateTokenURI: the token type the authority names, provided the scheme
   * is otpauth and there is a path; None where it throws.
   */
  function UriKind(uri: Uri): (kind: Option<TokenType>)
    ensures kind.Some? <==> && uri.scheme == Some("otpauth")
                            && (uri.authority == Some("totp") || uri.authority == Some("hotp"))
                            && uri.path.Some?
    ensures kind.Some? ==> (kind.value == TOTP <==> uri.authority == Some("totp"))
  {
    if uri.scheme != Some("otpauth") then None
    else if uri.authority == Some("totp") then (if uri.path.Some? then Some(TOTP) else None)
    else if uri.authority == Some("hotp") then (if uri.path.Some? then Some(HOTP) else None)
    else None
  }

  /**
   * The private constructor: validateTokenURI, then the path loses its first
   * '/', must not be empty, and is split at its first ':'; the query
   * parameters are read by ParseParameters. Every failure is the one
   * exception; no token is produced then.
   */
  function ParseUri(uri: Uri, internal: bool, mac: Mac, codec: Base32Codec): (r: Result<TokenState>)
    ensures r.Ok? ==> Wellformed(r.value)
    ensures r.Ok? ==> && uri.scheme == Some("otpauth")
                      && (uri.authority == Some("totp") || uri.authority == Some("hotp"))
                      && r.value.kind == (if uri.authority == Some("totp") then TOTP else HOTP)
                      && uri.path.Some? && RemoveFirst(uri.path.value, '/') != ""
                      && SplitsPath(RemoveFirst(uri.path.value, '/'), r.value.issuerExt, r.value.tokenLabel)
    ensures r.Ok? ==> && r.value.issuerInt == QueryParameter(uri.query, "issuer")
                      && mac.supported("Hmac" + r.value.algo)
                      && QueryParameter(uri.query, "secret").Some?
                      && codec.decode(QueryParameter(uri.query, "secret").value) == Some(r.value.secret)
    ensures r.Ok? && !internal ==> r.value.issuerAlt.None? && r.value.labelAlt.None?
  {
    match UriKind(uri)
    case None => TokenUriInvalid
    case Some(kind) =>
      var path := RemoveFirst(uri.path.value, '/');
      if path == "" then TokenUriInvalid
      else
        var (issuerExt, lbl) := SplitAtColon(path);
        match ParseParameters(uri, mac, codec, kind, issuerExt, lbl)
        case TokenUriInvalid => TokenUriInvalid
        case Ok(t) => Ok(if internal then WithAliases(t, uri) else t)
  }

  /** The end of the constructor for an internal URI: setIssuer and setLabel with the alias parameters. */
  function WithAliases(t: TokenState, uri: Uri): (r: TokenState)
    requires Wellformed(t)
    ensures Wellformed(r) && r.(issuerAlt := t.issuerAlt, labelAlt := t.labelAlt) == t
    ensures Effective(r.issuerAlt, r.issuerExt) == ParamOr(uri, "issueralt", t.issuerExt)
    ensures Effective(r.labelAlt, r.tokenLabel) == ParamOr(uri, "labelalt", t.tokenLabel)
  {
    t.(issuerAlt := NormalizedAlias(QueryParameter(uri.query, "issueralt"), t.issuerExt),
       labelAlt := NormalizedAlias(QueryParameter(uri.query, "labelalt"), t.tokenLabel))
  }

  /**
   * The rest of the constructor, once the path is split: algorithm, digits,
   * period, (for HOTP) counter and secret are read with their defaults and
   * checked in that order.
   */
  function ParseParameters(uri: Uri, mac: Mac, codec: Base32Codec,
                           kind: TokenType, issuerExt: string, lbl: string): (r: Result<TokenState>)
    requires ':' !in issuerExt
    ensures r.Ok? ==> && Wellformed(r.value)
                      && r.value.kind == kind && r.value.issuerExt == issuerExt && r.value.tokenLabel == lbl
    ensures r.Ok? ==> && r.value.issuerInt == QueryParameter(uri.query, "issuer")
                      && mac.supported("Hmac" + r.value.algo)
                      && QueryParameter(uri.query, "secret").Some?
                      && codec.decode(QueryParameter(uri.query, "secret").value) == Some(r.value.secret)
                      && r.value.issuerAlt.None? && r.value.labelAlt.None?
  {
    var algo := AsciiUpper(ParamOr(uri, "algorithm", "sha1"));
    AsciiUpperIdempotent(ParamOr(uri, "algorithm", "sha1"));
    if !mac.supported("Hmac" + algo) then TokenUriInvalid
    else match ParseInteger(ParamOr(uri, "digits", "6"), IntMin, IntMax)
    case None => TokenUriInvalid
    case Some(digits) =>
      if issuerExt != "Steam" && digits != 6 && digits != 8 then TokenUriInvalid
      else match ParseInteger(ParamOr(uri, "period", "30"), IntMin, IntMax)
      case None => TokenUriInvalid
      case Some(p) =>
        var counter := if kind == HOTP then ParseInteger(ParamOr(uri, "counter", "0"), LongMin, LongMax)
                       else Some(0);
        if counter.None? then TokenUriInvalid
        else match QueryParameter(uri.query, "secret")
        case None => TokenUriInvalid
        case Some(s) =>
          match codec.decode(s)
          case None => TokenUriInvalid
          case Some(secret) =>
            Ok(TokenState(QueryParameter(uri.query, "issuer"), issuerExt, lbl, secret, digits,
                          None, None, kind, algo, counter.value, if p > 0 then p else 30))
  }

  // ---------------------------------------------------------------------
  // Identity

  /** getID: issuerInt:label, else issuerExt:label, else the label alone. */
  function Id(t: TokenState): (id: string)
    ensures |t.tokenLabel| <= |id| && id[|id| - |t.tokenLabel|..] == t.tokenLabel
  {
    if t.issuerInt.Some? && t.issuerInt.value != "" then t.issuerInt.value + ":" + t.tokenLabel
    else if t.issuerExt != "" then t.issuerExt + ":" + t.tokenLabel
    else t.tokenLabel
  }

  // ---------------------------------------------------------------------
  // Codes

  /** getHOTP(counter): the code for one counter value, or "" when the keyed hash fails. */
  function Otp(t: TokenState, mac: Mac, counter: int): (code: string)
    requires DigitsAllowed(t.issuerExt, t.digits)
    ensures mac.hmac("Hmac" + t.algo, t.secret, EncodeCounter(counter)).None? ==> code == ""
    ensures mac.hmac("Hmac" + t.algo, t.secret, EncodeCounter(counter)).Some? ==>
              |code| == if t.issuerExt == "Steam" then (if t.digits > 0 then t.digits else 0) else t.digits
  {
    match mac.hmac("Hmac" + t.algo, t.secret, EncodeCounter(counter))
    case None => ""
    case Some(d) => FormatCode(t.issuerExt, t.digits, Truncate(d))
  }

  /** The time step of a TOTP token at `cur` milliseconds: cur / 1000 / period in Java's division. */
  function TimeStep(t: TokenState, cur: int): (step: int)
    requires t.period > 0
    ensures cur >= 0 ==> 0 <= step <= cur
    ensures cur < 0 ==> cur <= step <= 0
  {
    var secs := JavaDiv(cur, 1000);
    JavaDivTowardZero(cur, 1000);
    JavaDivTowardZero(secs, t.period);
    JavaDiv(secs, t.period)
  }

  /**
   * generateCodes at `cur` milliseconds: the codes it returns and the token
   * afterwards. HOTP consumes the counter; TOTP codes the current time step
   * and, as `next`, the step after it.
   */
  function Generate(t: TokenState, mac: Mac, cur: int): (r: (TokenCode, TokenState))
    requires Wellformed(t)
    ensures Wellformed(r.1)
    ensures r.1.(counter := t.counter) == t
  {
    match t.kind
    case HOTP =>
      (TokenCode(Otp(t, mac, t.counter), cur, cur + t.period * 1000, None),
       t.(counter := Long(t.counter + 1)))
    case TOTP =>
      var step := TimeStep(t, cur);
      (TokenCode(Otp(t, mac, step), step * t.period * 1000, (step + 1) * t.period * 1000,
                 Some(TokenCode(Otp(t, mac, step + 1), (step + 1) * t.period * 1000,
                                (step + 2) * t.period * 1000, None))),
       t)
  }

  // ---------------------------------------------------------------------
  // Export

  /** The issuer parameter toUri writes: issuerInt when present, otherwise issuerExt. */
  function ExportedIssuer(t: TokenState): (issuer: string)
    ensures t.issuerInt != Some("") ==>
              Id(t) == if issuer != "" then issuer + ":" + t.tokenLabel else t.tokenLabel
  {
    if t.issuerInt.None? then t.issuerExt else t.issuerInt.value
  }

  /** toUri's query: every base field, then for HOTP the counter one ahead; never the aliases. */
  function ExportQuery(t: TokenState, codec: Base32Codec): (query: seq<(string, string)>)
    ensures |query| == if t.kind == HOTP then 6 else 5
    ensures query[..5] == CommonQuery(t, codec)
    ensures t.kind == HOTP ==> query[5] == ("counter", IntToString(Long(t.counter + 1)))
  {
    var common := CommonQuery(t, codec);
    match t.kind
    case HOTP => common + [("counter", IntToString(Long(t.counter + 1)))]
    case TOTP => common
  }

  /** The parameters toUri appends for both token types, in order. */
  function CommonQuery(t: TokenState, codec: Base32Codec): (query: seq<(string, string)>)
    ensures |query| == 5
    ensures query[0].0 == "secret" && query[1].0 == "issuer" && query[2].0 == "algorithm"
    ensures query[3].0 == "digits" && query[4].0 == "period"
  {
    [("secret", codec.encode(t.secret)),
     ("issuer", ExportedIssuer(t)),
     ("algorithm", t.algo),
     ("digits", IntToString(t.digits)),
     ("period", IntToString(t.period))]
  }

  /** The path toUri hands to the builder: issuerExt:label, or the label alone when issuerExt is empty. */
  function ExportPath(t: TokenState): (path: string)
    ensures t.issuerExt == "" ==> path == t.tokenLabel
    ensures t.issuerExt != "" && ':' !in t.issuerExt ==> SplitsPath(path, t.issuerExt, t.tokenLabel)
  {
    if t.issuerExt != "" then
      var path := t.issuerExt + ":" + t.tokenLabel;
      assert path[|t.issuerExt|] == ':';
      path
    else t.tokenLabel
  }

  /** toUri: otpauth://hotp|totp/ with the export path and the export query. */
  function ToUri(t: TokenState, codec: Base32Codec): (u: Uri)
    ensures u.scheme == Some("otpauth") && u.authority == Some(if t.kind == HOTP then "hotp" else "totp")
    ensures u.query == ExportQuery(t, codec) && u.path.Some?
    ensures ExportPath(t) == "" ==> u.path.value == ""
    ensures var path := ExportPath(t);
            path != "" ==> RemoveFirst(u.path.value, '/') == if path[0] == '/' then path[1..] else path
  {
    var path := ExportPath(t);
    var u := Build("otpauth", if t.kind == HOTP then "hotp" else "totp", path, ExportQuery(t, codec));
    assert path != "" && path[0] != '/' ==> u.path.value[1..] == path;
    u
  }
}
